=== FILE: README.md ===
# Chronos time-state engine in Dafny

Chronos is a timer, stopwatch and counter app. It exists twice: as a React/zustand build and as a vanilla JavaScript port. Its engine is the same in both:

- three ordered collections of entities and a theme, held in one store and persisted to `localStorage` under `chronos-state`;
- store actions that add, remove, start, stop, reset, lap, rename and configure entities;
- stateless time helpers: two-digit padding, clamping, the `MM:SS.fff` and `H:MM:SS` displays, hours/minutes/seconds parsing, and percentages;
- views derived at render time: the elapsed time of a stopwatch, the remaining time, done flag and progress of a timer, and a counter's progress;
- the drift-free catch-up stepping of running counters, run once per animation frame;
- the lap CSV export and its file name;
- the vanilla event loop: subscribers, `setState`, the `actions` object and the frame-gated `tick`.

This project models that engine as pure functions. It works over integer milliseconds, sequences and immutable records. The wall clock (`Date.now()`) and the ids `nanoid()` would generate are parameters.

Modules, in dependency order:

| module | file | contents |
|---|---|---|
| `Wrappers` | `wrappers.dfy` | `Option` |
| `Text` | `text.dfy` | decimal rendering, `padStart`, `join`, `split` |
| `TimeMath` | `time_math.dfy` | `pad2`, `clamp`, `formatStopwatch`, `formatHMS`, `parseToMs`, `percent`, and read-back parsers for the two displays |
| `Entities` | `entities.dfy` | the records, the palette, elapsed and remaining time |
| `Collections` | `collections.dfy` | the `map`-by-id and `filter`-by-id shapes every action uses |
| `Store` | `store.dfy` | every store action |
| `StoreLaws` | `store_laws.dfy` | laws relating several actions |
| `Stepper` | `stepper.dfy` | counter catch-up stepping and progress |
| `Views` | `views.dfy` | timer card derivations, finish-and-stop, the hh/mm/ss inputs |
| `LapExport` | `lap_export.dfy` | CSV text and file name |
| `Persistence` | `persistence.dfy` | `partialize`/`saveState` and `loadState` |
| `Vanilla` | `vanilla.dfy` | subscribers, `setState`, actions, `tick` |

The vanilla `actions` (app.js lines 76-114) are the same transitions as the store actions in `store.ts`. `Vanilla.Apply` therefore dispatches each action to the matching `Store` function, and both builds share one model of the transitions. The vanilla helpers `nextColor`, `pad2`, `clamp`, `formatStopwatch`, `formatHMS`, `parseToMs` and `percent` (app.js lines 7-31) are the same code as `nextColor` in `store.ts` and the functions of `time.ts`. `Entities.NextColor` and `TimeMath` therefore cover both builds.

Some invariants one might expect do not hold in the code; the model follows the code:

- Lap totals are not strictly increasing. Two laps of a paused stopwatch record the same total and a zero split (`StoreLaws.PausedLapsRepeatTotal`).
- An anchor of 0 makes the lap code treat a running stopwatch as paused (`StoreLaws.LapTotalZeroAnchor`).
- Nothing in the code keeps a counter's step and interval positive. Stepping requires a positive interval only while the counter runs (`Stepper.CanStep`). The no-overshoot and coalescing laws additionally require a positive step.
- A configuration change may carry another counter's id, and then ids stop being unique (`StoreLaws.SetCounterConfigCanDuplicateIds`).

`formatStopwatch` builds its fraction as `(remainderMs / 1000).toFixed(3).slice(2)`. `TimeMath.ToFixed` follows the digit algorithm of `Number.prototype.toFixed` (section 21.1.3.3 of ECMA-262). `TimeMath.FormatStopwatch` is written with that slice, as the source is. `TimeMath.ToFixedSlice` and `TimeMath.FormatStopwatchParts` prove that the slice equals the remainder zero-padded to three digits.

## Model

| member | source | states |
|---|---|---|
| Entities.NextColor | workspace/chronos/src/store.ts:86-89 | the colour for position `index` is palette entry `index mod 6`, so it is always one of the six palette colours |
| Entities.ElapsedAt | workspace/chronos/src/components/Stopwatch.tsx:9 | a paused stopwatch shows its banked time; a running one shows the banked time plus exactly the time since its anchor |
| Entities.RemainingAt | workspace/chronos/src/components/Timer.tsx:20 | a paused timer shows its stored remainder; a running one never shows below zero, and while above zero shows the stored remainder less the time since its anchor |
| Text.NatToString | workspace/chronos/src/lib/time.ts:2 | the decimal form of `n` is a non-empty digit string without a leading zero that reads back as `n`; it has one digit exactly below 10, at most two below 100, at most three below 1000 |
| Text.IntToString | workspace/chronos/src/components/Stopwatch.tsx:16 | a negative value is written as a minus sign followed by the digits of its magnitude |
| TimeMath.JsRem | workspace/chronos/src/components/Timer.tsx:71-73 | JavaScript's `%` agrees with the Euclidean remainder on non-negative dividends; on negative ones it is non-positive and above `-b`, and differs from the dividend by a multiple of `b` |
| TimeMath.Pad2 | workspace/chronos/src/lib/time.ts:1-3 | the result has at least two characters; a single digit gets exactly one leading `0`; values of 10 and more are written unchanged; values below 100 give exactly two digits |
| TimeMath.Pad2Value | workspace/chronos/src/lib/time.ts:1-3 | padding a non-negative value keeps the number its digits denote |
| TimeMath.Clamp | workspace/chronos/src/lib/time.ts:5-7 | with `min <= max` the result is `min` below the range, `max` above it and `v` inside it; with `min > max` the upper bound wins |
| TimeMath.ToFixed | workspace/chronos/src/lib/time.ts:14 | `toFixed(f)` of a value below one writes at least `f + 2` characters with the point `f` places from the end |
| TimeMath.ToFixedSlice | workspace/chronos/src/lib/time.ts:13-14 | for a remainder below 1000, `toFixed(3).slice(2)` is exactly three digits that denote the remainder |
| TimeMath.StopwatchDecompose | workspace/chronos/src/lib/time.ts:10-13 | minutes, seconds below 60 and a remainder below 1000 recompose to the clamped time |
| TimeMath.FormatStopwatch | workspace/chronos/src/lib/time.ts:9-16 | the `MM:SS.fff` display of any input reads back as exactly the minutes, the seconds and the thousandths of the time clamped at zero (with StopwatchDecompose: seconds below 60, thousandths below 1000, recomposing to `max(0, ms)`) |
| TimeMath.FormatStopwatchParts | workspace/chronos/src/lib/time.ts:13-15 | the `toFixed(3).slice(2)` thousandths the display is built from are the remainder zero-padded to three digits, so the display is padded minutes, `:`, padded seconds, `.` and those three digits |
| TimeMath.ReadStopwatchParts | workspace/chronos/src/lib/time.ts:15 | a `MM:SS.fff` string built from digit fields reads back into exactly those fields |
| TimeMath.FormatStopwatchRoundTrip | workspace/chronos/src/lib/time.ts:9-16 | the display reads back as minutes, seconds in 0..59 and thousandths below 1000 that recompose to `max(0, ms)` |
| TimeMath.DecodeTime | workspace/chronos/src/lib/time.ts:10-13 | a display whose fields are those of `t` decodes to `t` |
| TimeMath.DecodeFormatStopwatch | workspace/chronos/src/lib/time.ts:9-16 | decoding the display gives back the clamped time it shows |
| TimeMath.FormatStopwatchInjective | workspace/chronos/src/lib/time.ts:9-16 | two non-negative times give the same display if and only if they are equal |
| TimeMath.FormatStopwatchClamps | workspace/chronos/src/lib/time.ts:10 | every negative time shows the same display as zero |
| TimeMath.FormatStopwatchZero | workspace/chronos/src/lib/time.ts:10-16 | zero and every negative time show `00:00.000` |
| TimeMath.FormatStopwatchExample | workspace/chronos/src/lib/time.ts:9-16 | 61234 ms shows `01:01.234` |
| TimeMath.Fraction3Example | workspace/chronos/src/lib/time.ts:14 | a remainder of 234 ms gives the fraction `234` |
| TimeMath.HMSDecompose | workspace/chronos/src/lib/time.ts:19-22 | hours, minutes below 60 and seconds below 60 recompose to the whole seconds |
| TimeMath.ReadHMSShort | workspace/chronos/src/lib/time.ts:26 | an `MM:SS` string of digit fields reads back as zero hours and those fields |
| TimeMath.ReadHMSLong | workspace/chronos/src/lib/time.ts:24 | an `H:MM:SS` string of digit fields reads back as exactly those fields |
| TimeMath.FormatHMS | workspace/chronos/src/lib/time.ts:18-27 | the countdown display of any input, short or long, reads back as exactly the hours, minutes and seconds of the whole seconds `max(0, floor(ms / 1000))` |
| TimeMath.FormatHMSRoundTrip | workspace/chronos/src/lib/time.ts:18-27 | the countdown display reads back as hours, minutes below 60 and seconds below 60 that recompose to `max(0, floor(ms / 1000))` |
| TimeMath.FormatHMSWholeSeconds | workspace/chronos/src/lib/time.ts:19 | two inputs give the same countdown display if and only if they fall in the same clamped whole second |
| TimeMath.FormatHMSShape | workspace/chronos/src/lib/time.ts:23-26 | below one hour the display has exactly five characters (`MM:SS`); from one hour on it has at least seven (`H:MM:SS`) |
| TimeMath.FormatHMSExamples | workspace/chronos/src/lib/time.ts:18-27 | 0 ms shows `00:00`; 3661000 ms shows `1:01:01` |
| TimeMath.ParseToMs | workspace/chronos/src/lib/time.ts:29-34 | non-finite fields count as 0; a non-negative sum of hours, minutes and seconds in ms is the result, and a negative sum gives 0 |
| TimeMath.ParseToMsExample | workspace/chronos/src/lib/time.ts:29-34 | NaN hours, 5 minutes and 10 seconds give 310000 ms |
| TimeMath.ParseToMsRecomposes | workspace/chronos/src/lib/time.ts:29-34 | parsing the hour, minute and second fields of a duration gives the duration rounded down to the whole second |
| TimeMath.Percent | workspace/chronos/src/lib/time.ts:36-39 | the result lies in 0..100; it is 0 for a non-positive total or non-positive progress, 100 once progress reaches the total, and otherwise exactly `progress / total * 100` |
| TimeMath.PercentMonotone | workspace/chronos/src/lib/time.ts:36-39 | more progress towards the same total never gives a smaller percentage |
| TimeMath.PercentExamples | workspace/chronos/src/lib/time.ts:37 | 50 of 100 is 50 %, and any progress over a zero total is 0 % |
| Collections.Ids | workspace/chronos/src/store.ts:115 | the key list has one key per element, in order |
| Collections.Update | workspace/chronos/src/store.ts:117 | the mapped list has the same length; elements with the key are changed, all others kept in place |
| Collections.Remove | workspace/chronos/src/store.ts:115 | the filtered list is no longer than the original, holds no element with the key, holds only original elements, and keeps every element with another key |
| Collections.RemoveConcat | workspace/chronos/src/store.ts:115 | removing from a concatenation removes from each part, so kept elements keep their order and multiplicity whether or not keys are unique |
| Collections.UpdateKeepsIds | workspace/chronos/src/store.ts:116-142 | an update whose change keeps keys leaves the key list unchanged |
| Collections.UpdateAbsent | workspace/chronos/src/store.ts:116-118 | updating a key no element carries changes nothing |
| Collections.UpdateAbsentAny | workspace/chronos/src/store.ts:116-215 | updating an absent key changes nothing, whatever the change |
| Collections.RemoveAbsent | workspace/chronos/src/store.ts:115 | removing a key no element carries changes nothing |
| Collections.RemoveSplice | workspace/chronos/src/store.ts:115 | with unique keys, removing the key at position `k` cuts out exactly that element and keeps the rest in order |
| Collections.RemoveMiddle | workspace/chronos/src/store.ts:115 | removing the key of an element that holds it alone, between `before` and `after`, leaves `before + after` |
| Collections.RemoveAppended | workspace/chronos/src/store.ts:101-115 | removing the key of an element just appended with a fresh key gives back the original list |
| Collections.RemoveKeepsUnique | workspace/chronos/src/store.ts:115 | removal keeps keys unique |
| Collections.AppendKeepsUnique | workspace/chronos/src/store.ts:101-114 | appending an element with a fresh key keeps keys unique |
| Collections.UpdateAbsorbs | workspace/chronos/src/store.ts:116-118 | a second update that its first one's result absorbs changes nothing more |
| Collections.UpdateCompose | workspace/chronos/src/store.ts:210-212 | two updates of the same key compose into one |
| Store.LabelOr | workspace/chronos/src/store.ts:107 | a non-empty given label is used; an absent or empty one falls back to the default |
| Store.SetTheme | workspace/chronos/src/store.ts:99 | only the theme changes, to the given one |
| Store.AddStopwatch | workspace/chronos/src/store.ts:101-114 | exactly one stopwatch is appended, all earlier ones are kept, and nothing else changes; it is paused at zero with no laps, the fresh id, colour `palette[n mod 6]` and, for a missing or empty label, `Stopwatch n+1` |
| Store.RemoveStopwatch | workspace/chronos/src/store.ts:115 | no stopwatch with the id remains, only original stopwatches remain, every other stopwatch stays, and nothing else changes |
| Store.StartStopwatch | workspace/chronos/src/store.ts:116-118 | only the anchor of the target can change; the target ends up running; a running stopwatch and every other one are left alone; a paused target is anchored at `now` |
| Store.StopStopwatch | workspace/chronos/src/store.ts:119-125 | a paused or non-target stopwatch is left alone; the target ends paused with banked time equal to the time it showed at `now`, every other field kept |
| Store.ResetStopwatch | workspace/chronos/src/store.ts:126-128 | the target keeps id, label and colour, loses its laps and anchor, and shows zero at every instant; others are untouched |
| Store.LapStopwatch | workspace/chronos/src/store.ts:129-139 | the target gains exactly one lap at the end, with the lap id, `now`, the lap total, and a split equal to that total less the previous lap's total (0 with no laps); nothing else changes |
| Store.RenameStopwatch | workspace/chronos/src/store.ts:140-142 | only the label of the target changes |
| Store.AddTimer | workspace/chronos/src/store.ts:144-158 | exactly one timer is appended, earlier ones kept; it has the preset as total and remainder, no anchor, sound `chime`, colour `palette[n mod 6]` and the `Timer n+1` fallback label |
| Store.RemoveTimer | workspace/chronos/src/store.ts:159 | no timer with the id remains, only original timers remain, every other timer stays |
| Store.StartTimer | workspace/chronos/src/store.ts:160-162 | only the anchor of a paused target changes, to `now`; running and other timers are left alone |
| Store.StopTimer | workspace/chronos/src/store.ts:163-170 | the running target ends paused with the remainder it showed at `now`, which is never negative and, for a non-negative remainder and `now` not before the anchor, never larger than before |
| Store.ResetTimer | workspace/chronos/src/store.ts:171-173 | the target is paused and shows its total at every instant; others are untouched |
| Store.SetTimerRemaining | workspace/chronos/src/store.ts:174-176 | only the stored remainder of the target changes; the anchor is kept |
| Store.RenameTimer | workspace/chronos/src/store.ts:177-179 | only the label of the target changes |
| Store.SetTimerSound | workspace/chronos/src/store.ts:180-182 | only the sound of the target changes |
| Store.AddCounter | workspace/chronos/src/store.ts:184-199 | exactly one counter is appended, earlier ones kept; each configured key overrides its default (start 0, target 100, up, step 1, interval 100, `Counter n+1`, palette colour), and the value is the start whatever else is configured |
| Store.RemoveCounter | workspace/chronos/src/store.ts:200 | no counter with the id remains, only original counters remain, every other counter stays |
| Store.StartCounter | workspace/chronos/src/store.ts:201-203 | only the anchor of a paused target changes, to `now`; running and other counters are left alone |
| Store.StopCounter | workspace/chronos/src/store.ts:204-206 | the target's anchor is cleared whether or not it was running; nothing else changes |
| Store.ResetCounter | workspace/chronos/src/store.ts:207-209 | the target is paused with its value back at its start; others are untouched |
| Store.SetCounterConfig | workspace/chronos/src/store.ts:210-212 | the target takes every field the patch gives and keeps the rest; others are untouched |
| Store.RenameCounter | workspace/chronos/src/store.ts:213-215 | only the label of the target changes |
| StoreLaws.UnknownStopwatchUnchanged | workspace/chronos/src/store.ts:115-142 | every stopwatch action on an id no stopwatch carries leaves the state unchanged |
| StoreLaws.UnknownTimerUnchanged | workspace/chronos/src/store.ts:159-182 | every timer action on an unknown id leaves the state unchanged |
| StoreLaws.UnknownCounterUnchanged | workspace/chronos/src/store.ts:200-215 | every counter action on an unknown id leaves the state unchanged |
| StoreLaws.AddThenRemoveStopwatch | workspace/chronos/src/store.ts:101-115 | removing a stopwatch just added with a fresh id restores the state |
| StoreLaws.AddThenRemoveTimer | workspace/chronos/src/store.ts:144-159 | removing a timer just added with a fresh id restores the state |
| StoreLaws.AddThenRemoveCounter | workspace/chronos/src/store.ts:184-200 | removing a counter just added with a fresh id restores the state |
| StoreLaws.RemoveStopwatchAt | workspace/chronos/src/store.ts:115 | with unique ids, removal cuts out exactly the stopwatch with the id and keeps the order of the rest |
| StoreLaws.RemoveTimerAt | workspace/chronos/src/store.ts:159 | the same for timers |
| StoreLaws.RemoveCounterAt | workspace/chronos/src/store.ts:200 | the same for counters |
| StoreLaws.StopwatchStartStopIdempotent | workspace/chronos/src/store.ts:116-128 | starting twice keeps the first anchor; stopping twice banks time once; resetting twice is resetting once |
| StoreLaws.TimerStartStopIdempotent | workspace/chronos/src/store.ts:160-173 | the same for timers |
| StoreLaws.CounterStartStopIdempotent | workspace/chronos/src/store.ts:201-209 | the same for counters |
| StoreLaws.RenameLastWins | workspace/chronos/src/store.ts:140-142 | of two renames of one entity the later one wins, for all three kinds |
| StoreLaws.SetTimerRemainingLastWins | workspace/chronos/src/store.ts:174-176 | of two remainder edits the later one wins |
| StoreLaws.PatchLaws | workspace/chronos/src/store.ts:211 | the empty patch changes nothing; two patches in turn equal their merge; merging a patch with itself gives it back |
| StoreLaws.SetCounterConfigCompose | workspace/chronos/src/store.ts:210-212 | two configuration changes of one counter equal one change by their merge, unless the first moves it to another id |
| StoreLaws.StopwatchDisplayContinuous | workspace/chronos/src/store.ts:116-125 | starting or stopping does not change the time the stopwatch shows at that instant |
| StoreLaws.StopwatchSessions | workspace/chronos/src/store.ts:116-125 | a paused stopwatch run from `t0` to `t1` and again from `t2` to `t3` banks exactly the two stretches |
| StoreLaws.TimerDisplayContinuous | workspace/chronos/src/store.ts:160-170 | stopping, and starting with a non-negative remainder, do not change the remaining time shown at that instant |
| StoreLaws.SetTimerRemainingKeepsAnchor | workspace/chronos/src/store.ts:174-176 | a remainder set on a running timer is counted down from the original anchor, not from the edit |
| StoreLaws.LapKeepsConsistent | workspace/chronos/src/store.ts:129-139 | recording a lap keeps every split equal to its total less the previous total |
| StoreLaws.SplitsSumToTotal | workspace/chronos/src/store.ts:134-135 | the splits of consistent laps add up to the last lap's total |
| StoreLaws.PausedLapsRepeatTotal | workspace/chronos/src/store.ts:133-136 | two laps of a paused stopwatch record the same total and the second split is zero, so totals need not increase strictly |
| StoreLaws.LapTotalIsElapsed | workspace/chronos/src/store.ts:133 | unless the anchor is 0, a lap records exactly the time the stopwatch shows |
| StoreLaws.LapTotalZeroAnchor | workspace/chronos/src/store.ts:133 | with an anchor of 0 a running stopwatch laps as if paused, leaving out the live stretch |
| StoreLaws.StopwatchUpdatesKeepIds | workspace/chronos/src/store.ts:116-142 | no per-stopwatch action changes the list of stopwatch ids |
| StoreLaws.TimerUpdatesKeepIds | workspace/chronos/src/store.ts:160-182 | no per-timer action changes the list of timer ids |
| StoreLaws.CounterUpdatesKeepIds | workspace/chronos/src/store.ts:201-215 | no per-counter action changes the counter ids, provided a configuration change does not set another id |
| StoreLaws.SetCounterConfigCanDuplicateIds | workspace/chronos/src/store.ts:210-212 | a configuration change carrying another counter's id breaks unique ids |
| StoreLaws.SameIdsWellFormed | workspace/chronos/src/store.ts:5-53 | a change that keeps every collection's ids keeps them unique |
| StoreLaws.AddRemoveKeepWellFormed | workspace/chronos/src/store.ts:101-200 | additions with fresh ids and all removals keep ids unique |
| Stepper.StepPatch | workspace/chronos/src/components/Counter.tsx:12-25 | a paused counter, or one with less than an interval since its anchor, asks for no change; otherwise it asks for a new value and anchor and never a new id |
| Stepper.StepCounter | workspace/chronos/src/components/Counter.tsx:12-25 | a tick changes only the value and anchor; a paused counter or one within its interval is untouched |
| Stepper.StepOutcome | workspace/chronos/src/components/Counter.tsx:14-22 | a tick that fires takes at least one whole interval; reaching or passing the target stops the counter exactly on it; otherwise the value moves by `steps * step * sign` and the anchor by exactly `steps * interval`, leaving the old elapsed time mod the interval unconsumed |
| Stepper.NoOvershoot | workspace/chronos/src/components/Counter.tsx:19-22 | with a positive step, a counter on the near side of its target stays between its value and the target |
| Stepper.StepStopsOnTarget | workspace/chronos/src/components/Counter.tsx:19-20 | a tick that stops a running counter leaves it exactly on the target |
| Stepper.CoalesceAfterFinish | workspace/chronos/src/components/Counter.tsx:14-22 | after a tick that stops the counter, a later tick changes nothing, as a single later tick would also stop it there |
| Stepper.CoalesceWithinInterval | workspace/chronos/src/components/Counter.tsx:14-22 | after an advancing tick, a later tick within the same interval equals a single later tick |
| Stepper.CoalesceAcrossIntervals | workspace/chronos/src/components/Counter.tsx:14-22 | after an advancing tick, a later tick finding new intervals equals a single later tick |
| Stepper.StepCoalesces | workspace/chronos/src/components/Counter.tsx:14-22 | a tick at `t1` followed by one at `t2 >= t1` leaves the counter exactly as a single tick at `t2` does |
| Stepper.StepMany | workspace/chronos/src/components/Counter.tsx:12-25 | a run of ticks keeps the step and interval and the counter steppable |
| Stepper.StepManyIsLastStep | workspace/chronos/src/components/Counter.tsx:12-25 | any run of ticks at non-decreasing times ends where the last tick alone would |
| Stepper.CounterProgress | workspace/chronos/src/components/Counter.tsx:27-30 | progress lies in 0..100; it is 0 when target equals start or nothing has been travelled, and 100 once the whole distance has been travelled |
| Stepper.StepProgressMonotone | workspace/chronos/src/components/Counter.tsx:19-30 | on the near side of the target, a tick never moves the progress bar back |
| Views.ViewTimer | workspace/chronos/src/components/Timer.tsx:20-22 | the card's remainder is the displayed remaining time and never negative for a non-negative stored remainder; done holds if and only if it is at most zero; the bar lies in 0..100, is the consumed share of a positive total, and is then full once done |
| Views.FinishTimer | workspace/chronos/src/components/Timer.tsx:24-30 | a timer that is running and done is stopped, with its sound requested exactly when not silent; in every other case nothing changes and no sound is requested |
| Views.FinishStopsAtZero | workspace/chronos/src/components/Timer.tsx:24-26 | a finishing timer is left paused at zero, the sound is requested exactly when not silent, and only the timers change |
| Views.FinishLeavesRunningTimer | workspace/chronos/src/components/Timer.tsx:24-25 | a running timer with time left is not stopped |
| Views.ClockFieldsOf | workspace/chronos/src/components/Timer.tsx:71-73 | a time built from hours, minutes below 60 and seconds below 60 gives those fields back |
| Views.FieldsInRange | workspace/chronos/src/components/Timer.tsx:71-73 | the minute and second fields of a non-negative remainder lie in 0..59 |
| Views.SubHourParts | workspace/chronos/src/components/Timer.tsx:71-73 | the minutes and seconds fields the inputs pass on are the remainder below an hour, rounded down to the second |
| Views.HoursInput | workspace/chronos/src/components/Timer.tsx:71 | a non-negative hours entry gives that many hours plus the remainder's part below an hour, to the second |
| Views.MinutesInput | workspace/chronos/src/components/Timer.tsx:72 | a non-negative minutes entry gives that many minutes plus the remainder's part below a minute, to the second |
| Views.SecondsInput | workspace/chronos/src/components/Timer.tsx:73 | a non-negative seconds entry gives that many seconds plus the remainder's whole minutes below an hour |
| Views.HoursInputKeepsMinutesSeconds | workspace/chronos/src/components/Timer.tsx:71 | typing hours sets the hours and keeps the minutes and seconds shown |
| Views.MinutesInputDropsHours | workspace/chronos/src/components/Timer.tsx:72 | typing minutes below 60 sets them, drops the hours and keeps the seconds |
| Views.SecondsInputDropsHours | workspace/chronos/src/components/Timer.tsx:73 | typing seconds below 60 sets them, drops the hours and keeps the minutes |
| Views.HoursInputNotANumber | workspace/chronos/src/components/Timer.tsx:71 | an hours entry that is not a number counts as zero hours, keeping the minutes and seconds shown |
| Views.ElapsedRate | workspace/chronos/src/components/Stopwatch.tsx:9 | a running stopwatch's display advances exactly with the clock; a paused one stands still |
| LapExport.Rows | workspace/chronos/src/components/Stopwatch.tsx:15-17 | there is one row per lap, in lap order |
| LapExport.LapsCsv | workspace/chronos/src/components/Stopwatch.tsx:14-18 | the CSV starts with the header line and its line break, and with no laps it is just that |
| LapExport.FormatStopwatchPlain | workspace/chronos/src/lib/time.ts:15 | a stopwatch display holds only digits, `:` and `.` |
| LapExport.RowFieldsPlain | workspace/chronos/src/components/Stopwatch.tsx:16 | every column of a row holds only digits, `:`, `.` and `-` |
| LapExport.FieldsHoldNoSeparators | workspace/chronos/src/components/Stopwatch.tsx:16 | no column holds a comma or a line break |
| LapExport.RowColumns | workspace/chronos/src/components/Stopwatch.tsx:15-17 | each row splits on commas into exactly five columns: the 1-based lap number, the split in ms, its display, the total in ms and its display |
| LapExport.RowSingleLine | workspace/chronos/src/components/Stopwatch.tsx:16 | a row holds no line break |
| LapExport.CsvLines | workspace/chronos/src/components/Stopwatch.tsx:14-18 | split into lines, the CSV is the header followed by one row per lap, with no trailing newline; with no laps it is the header and one empty piece |
| LapExport.SkipSpaces | workspace/chronos/src/components/Stopwatch.tsx:23 | skipping leading white space leaves a string that does not start with white space |
| LapExport.UnderscoreRuns | workspace/chronos/src/components/Stopwatch.tsx:23 | the replaced label holds no white space and is no longer than the original |
| LapExport.CsvFilename | workspace/chronos/src/components/Stopwatch.tsx:23 | the file name holds no white space and ends in `_laps.csv` |
| LapExport.UnderscoreRunsNoSpace | workspace/chronos/src/components/Stopwatch.tsx:23 | a label without white space is kept as it is |
| LapExport.UnderscoreRunsIdempotent | workspace/chronos/src/components/Stopwatch.tsx:23 | replacing twice is replacing once |
| LapExport.UnderscoreRunsBetween | workspace/chronos/src/components/Stopwatch.tsx:23 | a white-space run of any length between two words becomes one `_` |
| LapExport.CsvFilenameTwoWords | workspace/chronos/src/components/Stopwatch.tsx:23 | two words separated by any white-space run give `word1_word2_laps.csv` |
| Persistence.Partialize | workspace/chronos/src/store.ts:219-224 | the snapshot holds exactly the theme and the three collections |
| Persistence.SaveState | workspace/chronos-vanilla/app.js:57-59 | the snapshot is an object holding all four persisted keys, and loading it gives back the state |
| Persistence.LoadState | workspace/chronos-vanilla/app.js:46-55 | an absent, empty, unparsable or non-object entry loads the defaults; an object's keys override the defaults one by one and missing keys take their defaults |
| Persistence.SaveLoadRoundTrip | workspace/chronos-vanilla/app.js:46-59 | loading what was saved gives back the same state |
| Persistence.LoadDefaults | workspace/chronos-vanilla/app.js:39-55 | nothing usable in storage, or the saved defaults, load as system theme and three empty collections |
| Persistence.LoadSaveRoundTrip | workspace/chronos-vanilla/app.js:51 | a stored object with all four keys loads to a state that saves back to the same snapshot |
| Persistence.LoadSaveStable | workspace/chronos-vanilla/app.js:46-59 | once loaded and saved, a snapshot is a fixed point of load then save |
| Vanilla.Subscribe | workspace/chronos-vanilla/app.js:64-65 | the function is then registered; a known one leaves the set as it was; a new one goes last; a set without duplicates stays without duplicates |
| Vanilla.Unsubscribe | workspace/chronos-vanilla/app.js:65 | the function is no longer registered and every other subscriber stays |
| Vanilla.UnsubscribeConcat | workspace/chronos-vanilla/app.js:65 | deleting from a concatenation deletes from each part, so the remaining subscribers keep their order |
| Vanilla.UnsubscribeAt | workspace/chronos-vanilla/app.js:65 | in a duplicate-free subscriber set, deleting the subscriber at position `k` cuts out exactly that one and keeps the rest in insertion order |
| Vanilla.UnsubscribeMiddle | workspace/chronos-vanilla/app.js:65 | deleting a function registered once, between `before` and `after`, leaves `before + after` |
| Vanilla.SubscribeTwice | workspace/chronos-vanilla/app.js:65 | subscribing the same function twice registers it once |
| Vanilla.UnsubscribeAbsent | workspace/chronos-vanilla/app.js:65 | removing a function that is not registered changes nothing |
| Vanilla.UnsubscribeUndoesSubscribe | workspace/chronos-vanilla/app.js:65 | the handle `subscribe` returns undoes the subscription of a new function |
| Vanilla.Notifications | workspace/chronos-vanilla/app.js:71 | every subscriber is called once, in insertion order, with the state |
| Vanilla.SetState | workspace/chronos-vanilla/app.js:66-72 | the new state is installed first, then saved, then passed to every subscriber in order |
| Vanilla.SetStateConsistent | workspace/chronos-vanilla/app.js:66-72 | the saved snapshot loads back to exactly the state every subscriber was called with, which is the new state |
| Vanilla.Apply | workspace/chronos-vanilla/app.js:75-115 | the mutator an action hands to `setState` changes only its own collection; only `setTheme` changes the theme, and it changes nothing else |
| Vanilla.Dispatch | workspace/chronos-vanilla/app.js:75-115 | an action keeps the subscribers, installs the store transition of `store.ts` for the same `now` and fresh id, saves that new state first and then makes one notification per subscriber |
| Vanilla.ApplyKeepsWellFormed | workspace/chronos-vanilla/app.js:75-115 | every action keeps ids unique, given fresh ids for additions and no foreign id in a configuration change |
| Vanilla.MembershipKeepsWellFormed | workspace/chronos-vanilla/app.js:79-109 | additions with fresh ids and removals keep ids unique |
| Vanilla.StopwatchActionKeepsWellFormed | workspace/chronos-vanilla/app.js:85-89 | the per-stopwatch actions keep ids unique |
| Vanilla.TimerActionKeepsWellFormed | workspace/chronos-vanilla/app.js:94-99 | the per-timer actions keep ids unique |
| Vanilla.CounterActionKeepsWellFormed | workspace/chronos-vanilla/app.js:110-114 | the per-counter actions keep ids unique when a configuration change keeps the id |
| Vanilla.Firings | workspace/chronos-vanilla/app.js:430-433 | the tick body runs at a subset of the frames, never more often than there are frames |
| Vanilla.FiringsSpaced | workspace/chronos-vanilla/app.js:430-433 | tick bodies are at least 1000/60 ms of frame time apart, and the first is at least that far after the last recorded one |
| Vanilla.Tick | workspace/chronos-vanilla/app.js:430-451 | below the interval nothing happens; otherwise the frame time is recorded and the subscribers are kept |
| Vanilla.StepEach | workspace/chronos-vanilla/app.js:435-448 | stepping the counters keeps the subscribers and the recorded frame time |
| Vanilla.SteppedPrefix | workspace/chronos-vanilla/app.js:435-448 | after `k` counters, the first `k` are stepped and the rest are as they were |
| Vanilla.StepOneMore | workspace/chronos-vanilla/app.js:436-446 | with unique ids, the configuration change for counter `k` steps that counter alone |
| Vanilla.StepEachFrom | workspace/chronos-vanilla/app.js:435-448 | stepping from counter `k` onward ends with every counter stepped and nothing else changed |
| Vanilla.TickStepsEveryCounter | workspace/chronos-vanilla/app.js:430-451 | with unique ids, a tick that fires leaves every counter exactly as the component's catch-up step at `now` would, and changes neither the theme, the stopwatches nor the timers |

## Left out

- Sounds (`playSound`, WebAudio tones) are out. Only the decision whether a sound is requested is modelled.
- The DOM, rendering, theme application, the flash animation, `setTimeout` and the Notification API are out: they are browser side effects.
- `downloadBlob` and the Blob/URL/anchor half of the CSV export are out. Only the CSV text and the file name are modelled.
- `nanoid`, `Date.now()` and `performance.now()` become parameters. Additions take the fresh id as an argument, and the unique-ids laws require it to be fresh.
- `localStorage` reads and writes are values. A write that throws is swallowed by `saveState` (app.js line 58) and leaves the old snapshot in storage; that failure is not modelled, so `Vanilla.SetStateConsistent` describes a write that succeeds. Storage holds a `Stored` value (missing, corrupt, non-object, or an object with some of the four keys). Stored keys other than the four, and values of the wrong type under them, are not modelled.
- JavaScript numbers are integers here. Fractional millisecond inputs, `Math.floor` of fractions and floating-point rounding are out, and inputs to `parseToMs` are integers or non-finite. Percentages and the 1000/60 frame gate use exact reals.
- Vanilla.Notifications: every subscriber is modelled as a pure observer that receives the state `setState` installed. In the vanilla build this does not hold for `render`, the one subscriber (app.js line 426). While rendering, `TimerCard` (app.js lines 175-192) stops a finished running timer through `actions.stopTimer`, which re-enters `setState`. Because `forEach` reads the module-level `state` at each call (app.js lines 71 and 450), later subscribers and the stored snapshot then see that nested state. The model has the finishing stop only as its own transition (`Views.FinishTimer`), not nested inside a notification.
- Vanilla.TickStepsEveryCounter: the vanilla tick reads `Date.now()` once per counter; the model reads it once per tick.
- Stepper.StepPatch: requires only a positive interval for a running counter, as the division needs; a non-positive step is allowed, and only the no-overshoot and coalescing laws require a positive step.
- The React effect runs when `now` or `done` changes. That edge-triggering, and the React/zustand plumbing (`useTicker`, `persist`, `set`), are out. One effect run is modelled per call.
- `Settings`, `Tabs`, `App`, `useTicker`, and the vite and tailwind configuration are out: they are UI and build setup.
- `fractionDigits` of `formatStopwatch` is always 3 at its call sites, so only 3 is modelled.
- Colours are strings, compared by value only.
- Store.AddCounter: a configuration key is either given or absent. A key the caller passes as `undefined` (which `{ ...base, ...config }` copies over the default) is not modelled, because the typed callers never pass one.

=== FILE: collections.dfy ===
/** The two list shapes every store action uses: `xs.map(x => x.id === id ? f(x) : x)`
    and `xs.filter(x => x.id !== id)`, written once over any record type with
    a string key. */
module Collections {

  /** The keys of `xs`, in order. */
  function Ids<T>(xs: seq<T>, key: T -> string): (ids: seq<string>)
    ensures |ids| == |xs|
    ensures forall i :: 0 <= i < |xs| ==> ids[i] == key(xs[i])
  {
    seq(|xs|, i requires 0 <= i < |xs| => key(xs[i]))
  }

  predicate Unique(ids: seq<string>)
  {
    forall i, j :: 0 <= i < j < |ids| ==> ids[i] != ids[j]
  }

  /** `xs.map(x => key(x) === id ? f(x) : x)`. */
  function Update<T>(xs: seq<T>, key: T -> string, id: string, f: T -> T): (ys: seq<T>)
    ensures |ys| == |xs|
    ensures forall i :: 0 <= i < |xs| ==> ys[i] == if key(xs[i]) == id then f(xs[i]) else xs[i]
  {
    seq(|xs|, i requires 0 <= i < |xs| => if key(xs[i]) == id then f(xs[i]) else xs[i])
  }

  /** `xs.filter(x => key(x) !== id)`, built up from the front of the list. */
  function Remove<T>(xs: seq<T>, key: T -> string, id: string): (ys: seq<T>)
    ensures |ys| <= |xs|
    ensures forall i :: 0 <= i < |ys| ==> key(ys[i]) != id
    ensures forall i :: 0 <= i < |ys| ==> ys[i] in xs
    ensures forall i :: 0 <= i < |xs| && key(xs[i]) != id ==> xs[i] in ys
    decreases |xs|
  {
    if |xs| == 0 then []
    else
      var init, last := xs[..|xs| - 1], xs[|xs| - 1];
      var kept := Remove(init, key, id);
      if key(last) == id then kept else kept + [last]
  }

  /** An update whose change keeps every key leaves the keys alone. */
  lemma UpdateKeepsIds<T>(xs: seq<T>, key: T -> string, id: string, f: T -> T)
    requires forall x :: key(f(x)) == key(x)
    ensures Ids(Update(xs, key, id, f), key) == Ids(xs, key)
  {
  }

  /** Updating a key that is absent changes nothing. */
  lemma UpdateAbsent<T>(xs: seq<T>, key: T -> string, id: string, f: T -> T)
    requires id !in Ids(xs, key)
    ensures Update(xs, key, id, f) == xs
  {
    var ys := Update(xs, key, id, f);
    forall i | 0 <= i < |xs|
      ensures ys[i] == xs[i]
    {
      assert Ids(xs, key)[i] == key(xs[i]);
    }
  }

  /** Updating a key that is absent changes nothing, whatever the change. */
  lemma UpdateAbsentAny<T>(xs: seq<T>, key: T -> string, id: string)
    requires id !in Ids(xs, key)
    ensures forall f :: Update(xs, key, id, f) == xs
  {
    forall f {
      UpdateAbsent(xs, key, id, f);
    }
  }

  /** `filter` works element by element: removing from a concatenation is
      removing from each part, so the kept elements stay in their order and
      with their multiplicity, keys unique or not. */
  lemma {:induction false} RemoveConcat<T>(xs: seq<T>, ys: seq<T>, key: T -> string, id: string)
    ensures Remove(xs + ys, key, id) == Remove(xs, key, id) + Remove(ys, key, id)
    decreases |ys|
  {
    if |ys| == 0 {
      assert xs + ys == xs;
    } else {
      var init, last := ys[..|ys| - 1], ys[|ys| - 1];
      ConcatShape(xs, ys);
      RemoveConcat(xs, init, key, id);
      SnocAssoc(Remove(xs, key, id), Remove(init, key, id), last);
    }
  }

  /** The front and last element of `xs + ys` when `ys` is not empty. */
  lemma ConcatShape<T>(xs: seq<T>, ys: seq<T>)
    requires |ys| > 0
    ensures var zs := xs + ys;
            |zs| > 0 && zs[..|zs| - 1] == xs + ys[..|ys| - 1] && zs[|zs| - 1] == ys[|ys| - 1]
  {
    var zs := xs + ys;
    assert zs[..|zs| - 1] == xs + ys[..|ys| - 1];
  }

  lemma SnocAssoc<T>(a: seq<T>, b: seq<T>, x: T)
    ensures (a + b) + [x] == a + (b + [x])
  {
  }

  /** Removing a key that is absent changes nothing. */
  lemma {:induction false} RemoveAbsent<T>(xs: seq<T>, key: T -> string, id: string)
    requires id !in Ids(xs, key)
    ensures Remove(xs, key, id) == xs
    decreases |xs|
  {
    if |xs| > 0 {
      var init := xs[..|xs| - 1];
      assert Ids(xs, key)[|xs| - 1] == key(xs[|xs| - 1]);
      assert Ids(init, key) == Ids(xs, key)[..|xs| - 1];
      RemoveAbsent(init, key, id);
      assert init + [xs[|xs| - 1]] == xs;
    }
  }

  /** The front of a list with unique keys has unique keys, none equal to the last one's. */
  lemma UniqueInit<T>(xs: seq<T>, key: T -> string)
    requires |xs| > 0 && Unique(Ids(xs, key))
    ensures Ids(xs[..|xs| - 1], key) == Ids(xs, key)[..|xs| - 1]
    ensures Unique(Ids(xs[..|xs| - 1], key))
    ensures key(xs[|xs| - 1]) !in Ids(xs[..|xs| - 1], key)
  {
    var ids := Ids(xs, key);
    var n := |xs| - 1;
    assert Ids(xs[..n], key) == ids[..n];
    forall i | 0 <= i < n
      ensures ids[..n][i] != key(xs[n])
    {
      assert ids[i] != ids[n];
    }
  }

  /** With unique keys, removing the key found at position `k` cuts out exactly
      that element and keeps the others in their order. */
  lemma RemoveSplice<T>(xs: seq<T>, key: T -> string, k: nat)
    requires k < |xs| && Unique(Ids(xs, key))
    ensures Remove(xs, key, key(xs[k])) == xs[..k] + xs[k + 1..]
  {
    KeyOnlyAt(xs, key, k);
    SplitAt(xs, k);
    RemoveMiddle(xs[..k], xs[k], xs[k + 1..], key);
  }

  /** Removing the key of an element that holds it alone, between `before`
      and `after`, leaves `before + after`. */
  lemma RemoveMiddle<T>(before: seq<T>, x: T, after: seq<T>, key: T -> string)
    requires key(x) !in Ids(before, key) && key(x) !in Ids(after, key)
    ensures Remove(before + [x] + after, key, key(x)) == before + after
  {
    RemoveConcat(before + [x], after, key, key(x));
    RemoveAppended(before, key, x);
    RemoveAbsent(after, key, key(x));
  }

  /** With unique keys, the key at position `k` occurs nowhere else. */
  lemma KeyOnlyAt<T>(xs: seq<T>, key: T -> string, k: nat)
    requires k < |xs| && Unique(Ids(xs, key))
    ensures key(xs[k]) !in Ids(xs[..k], key) && key(xs[k]) !in Ids(xs[k + 1..], key)
  {
    var ids, before, after := Ids(xs, key), Ids(xs[..k], key), Ids(xs[k + 1..], key);
    forall j | 0 <= j < |before| ensures before[j] != key(xs[k]) {
      assert before[j] == ids[j];
    }
    forall j | 0 <= j < |after| ensures after[j] != key(xs[k]) {
      assert after[j] == ids[k + 1 + j];
    }
  }

  lemma SplitAt<T>(xs: seq<T>, k: nat)
    requires k < |xs|
    ensures xs == xs[..k] + [xs[k]] + xs[k + 1..]
  {
  }

  /** Removing the key of an element just appended (and absent before) gives
      back the original list. */
  lemma RemoveAppended<T>(xs: seq<T>, key: T -> string, x: T)
    requires key(x) !in Ids(xs, key)
    ensures Remove(xs + [x], key, key(x)) == xs
  {
    assert (xs + [x])[..|xs|] == xs;
    RemoveAbsent(xs, key, key(x));
  }

  /** Removal keeps the remaining keys unique. */
  lemma {:induction false} RemoveKeepsUnique<T>(xs: seq<T>, key: T -> string, id: string)
    requires Unique(Ids(xs, key))
    ensures Unique(Ids(Remove(xs, key, id), key))
    decreases |xs|
  {
    if |xs| > 0 {
      var n := |xs| - 1;
      var init := xs[..n];
      UniqueInit(xs, key);
      RemoveKeepsUnique(init, key, id);
      var kept := Remove(init, key, id);
      if key(xs[n]) != id {
        forall y | y in kept
          ensures key(y) != key(xs[n])
        {
          var m :| 0 <= m < n && init[m] == y;
          assert Ids(init, key)[m] == key(y);
        }
        assert Ids(kept + [xs[n]], key) == Ids(kept, key) + [key(xs[n])];
        AppendKeepsUnique(kept, key, xs[n]);
      }
    }
  }

  /** Appending an element with a fresh key keeps the keys unique. */
  lemma AppendKeepsUnique<T>(xs: seq<T>, key: T -> string, x: T)
    requires Unique(Ids(xs, key)) && key(x) !in Ids(xs, key)
    ensures Unique(Ids(xs + [x], key))
  {
    assert Ids(xs + [x], key) == Ids(xs, key) + [key(x)];
  }

  /** A second update whose change is absorbed by the first one's result
      (`g(f(x)) == f(x)`) changes nothing more. */
  lemma UpdateAbsorbs<T>(xs: seq<T>, key: T -> string, id: string, f: T -> T, g: T -> T)
    requires forall x :: key(f(x)) == key(x)
    requires forall x :: g(f(x)) == f(x)
    ensures Update(Update(xs, key, id, f), key, id, g) == Update(xs, key, id, f)
  {
  }

  /** Two updates of the same key compose into one. */
  lemma UpdateCompose<T>(xs: seq<T>, key: T -> string, id: string, f: T -> T, g: T -> T, h: T -> T)
    requires forall x :: key(f(x)) == key(x)
    requires forall x :: h(x) == g(f(x))
    ensures Update(Update(xs, key, id, f), key, id, g) == Update(xs, key, id, h)
  {
  }
}

=== FILE: entities.dfy ===
/** The records of the engine (`store.ts` types): stopwatches with laps,
    countdown timers, stepped counters and the theme, together with the colour
    palette new entities cycle through and the two "derive from the anchor"
    views of running time. A `None` anchor is JavaScript's `null`: the entity
    is paused. */
module Entities {
  import opened Wrappers

  // `label` is a reserved word in Dafny, so the display label of an entity is its `name`.

  datatype Lap = Lap(id: string, timestampMs: int, lapMs: int, totalMs: int)

  datatype Stopwatch = Stopwatch(
    id: string,
    name: string,
    startedAt: Option<int>,
    accumulatedMs: int,
    laps: seq<Lap>,
    color: string)

  datatype Sound = Beep | Chime | Bell | Silent

  datatype Timer = Timer(
    id: string,
    name: string,
    totalMs: int,
    startedAt: Option<int>,
    remainingMs: int,
    color: string,
    sound: Sound)

  datatype Direction = Up | Down

  datatype Counter = Counter(
    id: string,
    name: string,
    start: int,
    target: int,
    value: int,
    direction: Direction,
    step: int,
    intervalMs: int,
    startedAt: Option<int>,
    color: string)

  datatype Theme = Light | Dark | System

  /** The persisted part of the store: theme and the three ordered collections. */
  datatype State = State(
    theme: Theme,
    stopwatches: seq<Stopwatch>,
    timers: seq<Timer>,
    counters: seq<Counter>)

  const Palette: seq<string> := ["#1e40af", "#10b981", "#f59e0b", "#ef4444", "#8b5cf6", "#06b6d4"]

  /** `nextColor(index)`: the palette colour for the entity added at position `index`. */
  function NextColor(index: nat): (c: string)
    ensures c in Palette
    ensures c == Palette[index % 6]
  {
    Palette[index % |Palette|]
  }

  function StopwatchKey(w: Stopwatch): string { w.id }

  function TimerKey(t: Timer): string { t.id }

  function CounterKey(c: Counter): string { c.id }

  /** The elapsed time a stopwatch shows at `now` (`Stopwatch.tsx`): banked
      time, plus the live stretch since the anchor while running. */
  function ElapsedAt(w: Stopwatch, now: int): (e: int)
    ensures w.startedAt.None? ==> e == w.accumulatedMs
    ensures w.startedAt.Some? ==> e - w.accumulatedMs == now - w.startedAt.value
  {
    match w.startedAt
    case None => w.accumulatedMs
    case Some(a) => now - a + w.accumulatedMs
  }

  /** The remaining time a timer shows at `now` (`Timer.tsx`): the stored
      remainder, minus the live stretch since the anchor while running,
      never below zero while running. */
  function RemainingAt(t: Timer, now: int): (r: int)
    ensures t.startedAt.None? ==> r == t.remainingMs
    ensures t.startedAt.Some? ==> r >= 0 && r >= t.remainingMs - (now - t.startedAt.value)
    ensures t.startedAt.Some? && r > 0 ==> r == t.remainingMs - (now - t.startedAt.value)
  {
    match t.startedAt
    case None => t.remainingMs
    case Some(a) => if t.remainingMs - (now - a) >= 0 then t.remainingMs - (now - a) else 0
  }
}

=== FILE: lap_export.dfy ===
/** The text half of the stopwatch CSV export (`exportCSV` in
    `Stopwatch.tsx` and `app.js`): a fixed header line, one row per lap, rows
    joined by newlines, and the download file name derived from the label. */
module LapExport {
  import opened Text
  import opened TimeMath
  import opened Entities

  const HeaderLine: string := "Lap,Split (ms),Split,Total (ms),Total"

  /** The header, including its line break. */
  const Header: string := HeaderLine + "\n"

  /** The five columns of the row for the lap at position `i`. */
  function RowFields(i: nat, lap: Lap): seq<string>
  {
    [NatToString(i + 1), IntToString(lap.lapMs), FormatStopwatch(lap.lapMs),
     IntToString(lap.totalMs), FormatStopwatch(lap.totalMs)]
  }

  function Row(i: nat, lap: Lap): string
  {
    Join(RowFields(i, lap), ",")
  }

  function Rows(laps: seq<Lap>): (rows: seq<string>)
    ensures |rows| == |laps|
    ensures forall i :: 0 <= i < |laps| ==> rows[i] == Row(i, laps[i])
  {
    seq(|laps|, i requires 0 <= i < |laps| => Row(i, laps[i]))
  }

  /** `header + rows.join('\n')`. */
  function LapsCsv(laps: seq<Lap>): (csv: string)
    ensures |csv| >= |Header| && csv[..|Header|] == Header
    ensures laps == [] ==> csv == Header
  {
    Header + Join(Rows(laps), "\n")
  }

  /** The characters the number and display columns are made of. */
  predicate FieldChar(c: char)
  {
    IsDigit(c) || c == ':' || c == '.' || c == '-'
  }

  predicate PlainField(s: string)
  {
    forall i :: 0 <= i < |s| ==> FieldChar(s[i])
  }

  lemma DigitsArePlain(s: string)
    requires AllDigits(s)
    ensures PlainField(s)
  {
  }

  lemma IntToStringPlain(v: int)
    ensures PlainField(IntToString(v))
  {
    if v < 0 {
      var d := NatToString(-v);
      assert IntToString(v) == "-" + d;
      forall i | 0 <= i < |"-" + d|
        ensures FieldChar(("-" + d)[i])
      {
        if i > 0 {
          assert ("-" + d)[i] == d[i - 1];
        }
      }
    }
  }

  /** Digit strings joined by ':' and '.' are plain. */
  lemma ClockPlain(a: string, b: string, c: string)
    requires AllDigits(a) && AllDigits(b) && AllDigits(c)
    ensures PlainField(a + ":" + b + "." + c)
  {
    var s := a + ":" + b + "." + c;
    forall i | 0 <= i < |s|
      ensures FieldChar(s[i])
    {
      if i < |a| {
        assert s[i] == a[i];
      } else if i < |a| + 1 + |b| && i > |a| {
        assert s[i] == b[i - |a| - 1];
      } else if i > |a| + 1 + |b| {
        assert s[i] == c[i - |a| - 2 - |b|];
      }
    }
  }

  /** A stopwatch display holds only digits, ':' and '.'. */
  lemma FormatStopwatchPlain(ms: int)
    ensures PlainField(FormatStopwatch(ms))
  {
    var t := Max(0, ms);
    FormatStopwatchParts(ms);
    ToFixedSlice(t % 1000);
    ClockPlain(Pad2(t / 60000), Pad2((t % 60000) / 1000), Fraction3(t % 1000));
  }

  lemma PlainHasNoSeparators(s: string)
    requires PlainField(s)
    ensures ',' !in s && '\n' !in s
  {
  }

  /** Every column of a row is plain. */
  lemma RowFieldsPlain(i: nat, lap: Lap)
    ensures forall k :: 0 <= k < |RowFields(i, lap)| ==> PlainField(RowFields(i, lap)[k])
  {
    DigitsArePlain(NatToString(i + 1));
    IntToStringPlain(lap.lapMs);
    FormatStopwatchPlain(lap.lapMs);
    IntToStringPlain(lap.totalMs);
    FormatStopwatchPlain(lap.totalMs);
    FivePlain(NatToString(i + 1), IntToString(lap.lapMs), FormatStopwatch(lap.lapMs),
              IntToString(lap.totalMs), FormatStopwatch(lap.totalMs));
  }

  lemma FivePlain(a: string, b: string, c: string, d: string, e: string)
    requires PlainField(a) && PlainField(b) && PlainField(c) && PlainField(d) && PlainField(e)
    ensures forall k :: 0 <= k < 5 ==> PlainField([a, b, c, d, e][k])
  {
    forall k | 0 <= k < 5
      ensures PlainField([a, b, c, d, e][k])
    {
    }
  }

  /** No column of a row holds a comma or a line break. */
  lemma FieldsHoldNoSeparators(i: nat, lap: Lap)
    ensures |RowFields(i, lap)| == 5
    ensures forall k :: 0 <= k < 5 ==> ',' !in RowFields(i, lap)[k] && '\n' !in RowFields(i, lap)[k]
  {
    var fields := RowFields(i, lap);
    RowFieldsPlain(i, lap);
    forall k | 0 <= k < 5
      ensures ',' !in fields[k] && '\n' !in fields[k]
    {
      PlainHasNoSeparators(fields[k]);
    }
  }

  /** Each row splits on commas into exactly its five columns: the 1-based
      lap number, the split in ms and as a display, the total in ms and as a
      display. */
  lemma RowColumns(i: nat, lap: Lap)
    ensures Split(Row(i, lap), ',') == RowFields(i, lap)
    ensures |Split(Row(i, lap), ',')| == 5
    ensures DigitsValue(Split(Row(i, lap), ',')[0]) == i + 1
  {
    FieldsHoldNoSeparators(i, lap);
    SplitJoin(RowFields(i, lap), ',');
  }

  /** A row holds no line break. */
  lemma RowSingleLine(i: nat, lap: Lap)
    ensures '\n' !in Row(i, lap)
  {
    FieldsHoldNoSeparators(i, lap);
    JoinChars(RowFields(i, lap), ",", '\n');
  }

  /** Split into lines, the CSV is the header line followed by one row per
      lap; with no laps it is the header line and the empty piece after its
      line break (there is no trailing newline after the last row). */
  lemma CsvLines(laps: seq<Lap>)
    ensures |laps| > 0 ==> Split(LapsCsv(laps), '\n') == [HeaderLine] + Rows(laps)
    ensures |laps| == 0 ==> Split(LapsCsv(laps), '\n') == [HeaderLine, ""]
  {
    var rows := Rows(laps);
    assert '\n' !in HeaderLine;
    assert LapsCsv(laps) == HeaderLine + ['\n'] + Join(rows, "\n");
    SplitAfterPiece(HeaderLine, '\n', Join(rows, "\n"));
    if |laps| > 0 {
      forall k | 0 <= k < |rows|
        ensures '\n' !in rows[k]
      {
        RowSingleLine(k, laps[k]);
      }
      SplitJoin(rows, '\n');
    }
  }

  // ---------------------------------------------------------------------------
  // File name
  // ---------------------------------------------------------------------------

  /** The characters JavaScript's `\s` matches: ASCII white space and the
      Unicode space separators, line and paragraph separators and the byte
      order mark. */
  predicate IsJsSpace(c: char)
  {
    c == ' ' || c == '\t' || c == '\n' || c == '\U{000B}' || c == '\U{000C}' || c == '\r'
    || c == '\U{00A0}' || c == '\U{1680}' || ('\U{2000}' <= c <= '\U{200A}')
    || c == '\U{2028}' || c == '\U{2029}' || c == '\U{202F}' || c == '\U{205F}'
    || c == '\U{3000}' || c == '\U{FEFF}'
  }

  predicate NoSpace(s: string)
  {
    forall i :: 0 <= i < |s| ==> !IsJsSpace(s[i])
  }

  /** `s` with its leading white space removed. */
  function SkipSpaces(s: string): (r: string)
    ensures |r| <= |s|
    ensures |r| > 0 ==> !IsJsSpace(r[0])
    decreases |s|
  {
    if |s| > 0 && IsJsSpace(s[0]) then SkipSpaces(s[1..]) else s
  }

  /** `s.replace(/\s+/g, '_')`: every maximal run of white space becomes one `_`. */
  function UnderscoreRuns(s: string): (r: string)
    ensures NoSpace(r)
    ensures |r| <= |s|
    decreases |s|
  {
    if |s| == 0 then ""
    else if IsJsSpace(s[0]) then "_" + UnderscoreRuns(SkipSpaces(s[1..]))
    else [s[0]] + UnderscoreRuns(s[1..])
  }

  /** `${label.replace(/\s+/g, '_')}_laps.csv`. */
  function CsvFilename(name: string): (f: string)
    ensures NoSpace(f)
    ensures |f| >= 9 && f[|f| - 9..] == "_laps.csv"
  {
    UnderscoreRuns(name) + "_laps.csv"
  }

  /** A label without white space is kept as it is. */
  lemma {:induction false} UnderscoreRunsNoSpace(s: string)
    requires NoSpace(s)
    ensures UnderscoreRuns(s) == s
    decreases |s|
  {
    if |s| > 0 {
      UnderscoreRunsNoSpace(s[1..]);
      assert [s[0]] + s[1..] == s;
    }
  }

  /** Replacing again changes nothing. */
  lemma UnderscoreRunsIdempotent(s: string)
    ensures UnderscoreRuns(UnderscoreRuns(s)) == UnderscoreRuns(s)
  {
    UnderscoreRunsNoSpace(UnderscoreRuns(s));
  }

  /** A run of white space, however long, between two words becomes one `_`. */
  lemma {:induction false} UnderscoreRunsBetween(a: string, run: string, b: string)
    requires NoSpace(a) && |run| > 0 && forall i :: 0 <= i < |run| ==> IsJsSpace(run[i])
    requires |b| > 0 ==> !IsJsSpace(b[0])
    ensures UnderscoreRuns(a + run + b) == a + "_" + UnderscoreRuns(b)
    decreases |a|
  {
    if |a| == 0 {
      assert a + run + b == run + b;
      UnderscoreRunsAtRun(run, b);
    } else {
      var s := a + run + b;
      assert s[0] == a[0] && s[1..] == a[1..] + run + b;
      UnderscoreRunsBetween(a[1..], run, b);
      assert [a[0]] + (a[1..] + "_" + UnderscoreRuns(b)) == a + "_" + UnderscoreRuns(b);
    }
  }

  /** A leading run of white space becomes one `_`. */
  lemma UnderscoreRunsAtRun(run: string, b: string)
    requires |run| > 0 && forall i :: 0 <= i < |run| ==> IsJsSpace(run[i])
    requires |b| > 0 ==> !IsJsSpace(b[0])
    ensures UnderscoreRuns(run + b) == "_" + UnderscoreRuns(b)
  {
    var s := run + b;
    assert s[0] == run[0] && s[1..] == run[1..] + b;
    SkipRun(run[1..], b);
  }

  lemma {:induction false} SkipRun(run: string, b: string)
    requires forall i :: 0 <= i < |run| ==> IsJsSpace(run[i])
    requires |b| > 0 ==> !IsJsSpace(b[0])
    ensures SkipSpaces(run + b) == b
    decreases |run|
  {
    if |run| > 0 {
      assert (run + b)[1..] == run[1..] + b;
      SkipRun(run[1..], b);
    } else {
      assert run + b == b;
    }
  }

  /** Two words separated by any run of white space give one file name with
      a single `_` between them. */
  lemma CsvFilenameTwoWords(a: string, run: string, b: string)
    requires NoSpace(a) && NoSpace(b)
    requires |run| > 0 && forall i :: 0 <= i < |run| ==> IsJsSpace(run[i])
    ensures CsvFilename(a + run + b) == a + "_" + b + "_laps.csv"
  {
    UnderscoreRunsBetween(a, run, b);
    UnderscoreRunsNoSpace(b);
  }
}

=== FILE: persistence.dfy ===
/** What is written to and read back from storage under the key
    `chronos-state`: the four data fields of the store (`partialize` in
    `store.ts`, `saveState` in `app.js`), and the vanilla `loadState`, which
    falls back to the defaults when nothing usable is stored and otherwise
    lays the stored keys over the defaults. */
module Persistence {
  import opened Wrappers
  import opened Entities
  import opened Store

  const StorageKey: string := "chronos-state"

  /** The keys of a parsed JSON object that the engine knows about; `None`
      is a key the object does not have. */
  datatype PersistedFields = PersistedFields(
    theme: Option<Theme>,
    stopwatches: Option<seq<Stopwatch>>,
    timers: Option<seq<Timer>>,
    counters: Option<seq<Counter>>)

  /** What `localStorage.getItem` gives back, as `loadState` sees it. */
  datatype Stored =
    | Missing                       // no entry, or the empty string
    | Corrupt                       // `JSON.parse` throws
    | NonObject                     // parses to a non-object, which adds none of the four keys
    | Object(fields: PersistedFields)

  /** `partialize`: the data fields of the store, every key present. */
  function Partialize(s: State): (p: PersistedFields)
    ensures p.theme == Some(s.theme) && p.stopwatches == Some(s.stopwatches)
    ensures p.timers == Some(s.timers) && p.counters == Some(s.counters)
  {
    PersistedFields(Some(s.theme), Some(s.stopwatches), Some(s.timers), Some(s.counters))
  }

  /** `saveState(state)`: the serialised snapshot, an object holding every
      persisted key, from which `loadState` recovers the state. */
  function SaveState(s: State): (r: Stored)
    ensures r.Object?
    ensures r.fields.theme.Some? && r.fields.stopwatches.Some? && r.fields.timers.Some? && r.fields.counters.Some?
    ensures LoadState(r) == s
  {
    Object(Partialize(s))
  }

  /** `loadState()`: the defaults, unless storage holds an object, whose keys
      then replace the defaults one by one (`{ ...defaultState, ...parsed }`). */
  function LoadState(stored: Stored): (s: State)
    ensures !stored.Object? ==> s == Initial
    ensures stored.Object? ==>
              && s.theme == stored.fields.theme.GetOr(System)
              && s.stopwatches == stored.fields.stopwatches.GetOr([])
              && s.timers == stored.fields.timers.GetOr([])
              && s.counters == stored.fields.counters.GetOr([])
  {
    match stored
    case Object(f) =>
      State(f.theme.GetOr(Initial.theme), f.stopwatches.GetOr(Initial.stopwatches),
            f.timers.GetOr(Initial.timers), f.counters.GetOr(Initial.counters))
    case _ => Initial
  }

  /** Saving then loading gives back the same state. */
  lemma SaveLoadRoundTrip(s: State)
    ensures LoadState(SaveState(s)) == s
  {
  }

  /** Loading the default state's snapshot, or nothing usable, gives the defaults. */
  lemma LoadDefaults(stored: Stored)
    requires stored == Missing || stored == Corrupt || stored == NonObject || stored == SaveState(Initial)
    ensures LoadState(stored) == State(System, [], [], [])
  {
  }

  /** A stored object holding all four keys loads to a state that saves
      back to the very same snapshot. */
  lemma LoadSaveRoundTrip(f: PersistedFields)
    requires f.theme.Some? && f.stopwatches.Some? && f.timers.Some? && f.counters.Some?
    ensures SaveState(LoadState(Object(f))) == Object(f)
  {
  }

  /** A state that was saved and loaded saves to the same snapshot again. */
  lemma LoadSaveStable(stored: Stored)
    ensures SaveState(LoadState(SaveState(LoadState(stored)))) == SaveState(LoadState(stored))
  {
    SaveLoadRoundTrip(LoadState(stored));
  }
}

=== FILE: stepper.dfy ===
/** Catch-up stepping of a running counter (`Counter.tsx` effect, and the
    per-counter body of the vanilla `tick`). A tick at wall-clock `now` takes
    as many whole intervals as have passed since the anchor, moves the value
    by that many steps, and either stops the counter on the target or moves
    the anchor forward by exactly the intervals consumed, so the unconsumed
    remainder carries over to the next tick and no time is lost. */
module Stepper {
  import opened Wrappers
  import opened TimeMath
  import opened Entities
  import opened Store

  /** `direction === 'down' ? -1 : 1`. */
  function DirectionSign(d: Direction): int
  {
    if d == Down then -1 else 1
  }

  /** `steps * step * sign`: the change `steps` whole intervals make. */
  function Delta(c: Counter, steps: int): int
  {
    steps * c.step * DirectionSign(c.direction)
  }

  /** `next` has reached or passed the target in the direction of travel. */
  predicate Reached(c: Counter, next: int)
  {
    (c.direction == Up && next >= c.target) || (c.direction == Down && next <= c.target)
  }

  /** A tick divides by the interval only for a running counter, so only a
      running counter needs a positive interval. */
  predicate CanStep(c: Counter)
  {
    c.startedAt.Some? ==> c.intervalMs > 0
  }

  /** The configuration change one tick asks for, or `None` when the effect
      does nothing (the counter is paused, or less than one interval has
      passed since the anchor). */
  function StepPatch(c: Counter, now: int): (p: Option<CounterPatch>)
    requires CanStep(c)
    ensures c.startedAt.None? ==> p.None?
    ensures c.startedAt.Some? ==> (p.Some? <==> now - c.startedAt.value >= c.intervalMs)
    ensures p.Some? ==> p.value.id.None? && p.value.startedAt.Some? && p.value.value.Some?
  {
    match c.startedAt
    case None => None
    case Some(a) =>
      var elapsed := now - a;
      if elapsed < c.intervalMs then None
      else
        var steps := elapsed / c.intervalMs;
        var next := c.value + Delta(c, steps);
        if Reached(c, next) then Some(NoChange.(value := Some(c.target), startedAt := Some(None)))
        else Some(NoChange.(value := Some(next), startedAt := Some(Some(a + steps * c.intervalMs))))
  }

  /** The counter after one tick at `now`. */
  function StepCounter(c: Counter, now: int): (c': Counter)
    requires CanStep(c)
    ensures c'.id == c.id && c'.name == c.name && c'.start == c.start && c'.target == c.target
    ensures c'.direction == c.direction && c'.step == c.step && c'.intervalMs == c.intervalMs && c'.color == c.color
    ensures CanStep(c')
    ensures c.startedAt.None? ==> c' == c
    ensures c.startedAt.Some? && now - c.startedAt.value < c.intervalMs ==> c' == c
  {
    match StepPatch(c, now)
    case None => c
    case Some(p) => ApplyPatch(c, p)
  }

  // ---------------------------------------------------------------------------
  // Arithmetic helpers
  // ---------------------------------------------------------------------------

  lemma MulNonNegative(a: int, b: int)
    requires a >= 0 && b >= 0
    ensures a * b >= 0
  {
  }

  lemma MulSub(x: int, y: int, d: int)
    ensures (x - y) * d == x * d - y * d
  {
  }

  /** Integer division by a positive divisor is monotone. */
  lemma DivMonotone(x: int, y: int, d: int)
    requires d > 0 && x <= y
    ensures x / d <= y / d
  {
    var qx, rx := x / d, x % d;
    var qy, ry := y / d, y % d;
    if qx > qy {
      assert d * qx == d * qy + d * (qx - qy);
      MulAtLeast(d, qx - qy);
      assert false;
    }
  }

  /** Taking `k` whole divisors off takes `k` off the quotient and keeps the remainder. */
  lemma DivSub(x: int, k: int, d: int)
    requires d > 0
    ensures (x - k * d) / d == x / d - k
    ensures (x - k * d) % d == x % d
  {
    var q, r := x / d, x % d;
    assert x - k * d == d * (q - k) + r by {
      assert d * (q - k) == d * q - d * k;
      assert k * d == d * k;
    }
    DivModUnique(x - k * d, d, q - k, r);
  }

  lemma DeltaAdd(c: Counter, s1: int, s2: int)
    ensures Delta(c, s1 + s2) == Delta(c, s1) + Delta(c, s2)
  {
    assert (s1 + s2) * c.step == s1 * c.step + s2 * c.step;
  }

  /** With a positive step, more intervals move further in the direction of travel. */
  lemma DeltaMonotone(c: Counter, s1: int, s2: int)
    requires c.step > 0 && s1 <= s2
    ensures c.direction == Up ==> Delta(c, s1) <= Delta(c, s2)
    ensures c.direction == Down ==> Delta(c, s1) >= Delta(c, s2)
  {
    DeltaAdd(c, s1, s2 - s1);
    MulNonNegative(s2 - s1, c.step);
  }

  // ---------------------------------------------------------------------------
  // What a tick does
  // ---------------------------------------------------------------------------

  /** A tick that fires consumes `steps >= 1` whole intervals: it either stops
      the counter exactly on the target, or moves the value by `steps` steps and
      the anchor by exactly `steps` intervals, leaving less than one interval
      unconsumed. */
  lemma StepOutcome(c: Counter, now: int)
    requires CanStep(c) && c.startedAt.Some? && now - c.startedAt.value >= c.intervalMs
    ensures var a := c.startedAt.value;
            var steps := (now - a) / c.intervalMs;
            var c' := StepCounter(c, now);
            && steps >= 1
            && (Reached(c, c.value + Delta(c, steps)) ==> c' == c.(value := c.target, startedAt := None))
            && (!Reached(c, c.value + Delta(c, steps)) ==>
                  && c' == c.(value := c.value + Delta(c, steps), startedAt := Some(a + steps * c.intervalMs))
                  && now - c'.startedAt.value == (now - a) % c.intervalMs
                  && 0 <= now - c'.startedAt.value < c.intervalMs)
  {
    var a := c.startedAt.value;
    var steps := (now - a) / c.intervalMs;
    DivMonotone(c.intervalMs, now - a, c.intervalMs);
    DivModUnique(c.intervalMs, c.intervalMs, 1, 0);
    assert now - (a + steps * c.intervalMs) == (now - a) % c.intervalMs by {
      assert now - a == c.intervalMs * steps + (now - a) % c.intervalMs;
      assert steps * c.intervalMs == c.intervalMs * steps;
    }
  }

  /** No overshoot: with a positive step a counter that has not yet passed its
      target never passes it, and its value only moves toward the target. */
  lemma NoOvershoot(c: Counter, now: int)
    requires CanStep(c) && c.step > 0
    ensures var c' := StepCounter(c, now);
            && (c.direction == Up && c.value <= c.target ==> c.value <= c'.value <= c.target)
            && (c.direction == Down && c.value >= c.target ==> c.target <= c'.value <= c.value)
  {
    if c.startedAt.Some? && now - c.startedAt.value >= c.intervalMs {
      StepOutcome(c, now);
      DeltaMonotone(c, 0, (now - c.startedAt.value) / c.intervalMs);
    }
  }

  /** A counter that reaches its target stops there. */
  lemma StepStopsOnTarget(c: Counter, now: int)
    requires CanStep(c)
    ensures var c' := StepCounter(c, now);
            c'.startedAt.None? && c.startedAt.Some? ==> c'.value == c.target
  {
    if c.startedAt.Some? && now - c.startedAt.value >= c.intervalMs {
      StepOutcome(c, now);
    }
  }

  /** A tick that stops the counter is final: any later tick finds it paused. */
  lemma CoalesceAfterFinish(c: Counter, t1: int, t2: int)
    requires CanStep(c) && c.step > 0 && t1 <= t2
    requires c.startedAt.Some? && t1 - c.startedAt.value >= c.intervalMs
    requires Reached(c, c.value + Delta(c, (t1 - c.startedAt.value) / c.intervalMs))
    ensures StepCounter(StepCounter(c, t1), t2) == StepCounter(c, t2)
  {
    var a, d := c.startedAt.value, c.intervalMs;
    DivMonotone(t1 - a, t2 - a, d);
    DeltaMonotone(c, (t1 - a) / d, (t2 - a) / d);
    StepOutcome(c, t1);
    StepOutcome(c, t2);
  }

  /** After an advancing tick at `t1`, a tick at `t2` that finds less than one
      new interval is the same as a single tick at `t2`. */
  lemma CoalesceWithinInterval(c: Counter, t1: int, t2: int)
    requires CanStep(c) && c.step > 0 && t1 <= t2
    requires c.startedAt.Some? && t1 - c.startedAt.value >= c.intervalMs
    requires !Reached(c, c.value + Delta(c, (t1 - c.startedAt.value) / c.intervalMs))
    requires t2 - StepCounter(c, t1).startedAt.value < c.intervalMs
    ensures StepCounter(StepCounter(c, t1), t2) == StepCounter(c, t2)
  {
    var a, d := c.startedAt.value, c.intervalMs;
    var s1 := (t1 - a) / d;
    StepOutcome(c, t1);
    var a1 := a + s1 * d;
    assert t2 - a == d * s1 + (t2 - a1);
    DivModUnique(t2 - a, d, s1, t2 - a1);
    StepOutcome(c, t2);
  }

  /** After an advancing tick at `t1`, a tick at `t2` that finds further whole
      intervals takes exactly the ones a single tick at `t2` takes beyond `t1`'s. */
  lemma CoalesceAcrossIntervals(c: Counter, t1: int, t2: int)
    requires CanStep(c) && c.step > 0 && t1 <= t2
    requires c.startedAt.Some? && t1 - c.startedAt.value >= c.intervalMs
    requires !Reached(c, c.value + Delta(c, (t1 - c.startedAt.value) / c.intervalMs))
    requires t2 - StepCounter(c, t1).startedAt.value >= c.intervalMs
    ensures StepCounter(StepCounter(c, t1), t2) == StepCounter(c, t2)
  {
    var a, d := c.startedAt.value, c.intervalMs;
    var s1 := (t1 - a) / d;
    var s2 := (t2 - a) / d;
    StepOutcome(c, t1);
    var c1 := StepCounter(c, t1);
    var a1 := a + s1 * d;
    assert t2 - a1 == (t2 - a) - s1 * d;
    DivSub(t2 - a, s1, d);
    StepOutcome(c1, t2);
    StepOutcome(c, t2);
    DeltaAdd(c, s1, s2 - s1);
    MulSub(s2, s1, d);
  }

  /** Coalescing: a tick at `t1` followed by a tick at `t2 >= t1` leaves the
      counter exactly as a single tick at `t2` does, so missed frames cost
      nothing. */
  lemma StepCoalesces(c: Counter, t1: int, t2: int)
    requires CanStep(c) && c.step > 0 && t1 <= t2
    ensures StepCounter(StepCounter(c, t1), t2) == StepCounter(c, t2)
  {
    if c.startedAt.Some? && t1 - c.startedAt.value >= c.intervalMs {
      var s1 := (t1 - c.startedAt.value) / c.intervalMs;
      if Reached(c, c.value + Delta(c, s1)) {
        CoalesceAfterFinish(c, t1, t2);
      } else {
        StepOutcome(c, t1);
        if t2 - StepCounter(c, t1).startedAt.value < c.intervalMs {
          CoalesceWithinInterval(c, t1, t2);
        } else {
          CoalesceAcrossIntervals(c, t1, t2);
        }
      }
    }
  }

  /** The counter after a tick at each of `times`, in order. */
  function StepMany(c: Counter, times: seq<int>): (c': Counter)
    requires CanStep(c)
    ensures CanStep(c') && c'.step == c.step && c'.intervalMs == c.intervalMs
    decreases |times|
  {
    if |times| == 0 then c else StepMany(StepCounter(c, times[0]), times[1..])
  }

  predicate Nondecreasing(times: seq<int>)
  {
    forall i, j :: 0 <= i <= j < |times| ==> times[i] <= times[j]
  }

  /** Any run of ticks at nondecreasing times ends where the last tick alone would. */
  lemma {:induction false} StepManyIsLastStep(c: Counter, times: seq<int>)
    requires CanStep(c) && c.step > 0 && |times| >= 1 && Nondecreasing(times)
    ensures StepMany(c, times) == StepCounter(c, times[|times| - 1])
    decreases |times|
  {
    if |times| > 1 {
      var c1 := StepCounter(c, times[0]);
      StepManyIsLastStep(c1, times[1..]);
      StepCoalesces(c, times[0], times[|times| - 1]);
    }
  }

  // ---------------------------------------------------------------------------
  // Progress
  // ---------------------------------------------------------------------------

  /** The distance travelled from the start in the direction of travel. */
  function Travelled(c: Counter): int
  {
    if c.direction == Up then c.value - c.start else c.start - c.value
  }

  function Abs(x: int): nat { if x < 0 then -x else x }

  /** `percent(travelled, |target - start|)`: the progress bar of a counter. */
  function CounterProgress(c: Counter): (r: real)
    ensures 0.0 <= r <= 100.0
    ensures c.target == c.start ==> r == 0.0
    ensures c.target != c.start && Travelled(c) >= Abs(c.target - c.start) ==> r == 100.0
    ensures c.target != c.start && Travelled(c) <= 0 ==> r == 0.0
  {
    Percent(Travelled(c) as real, Abs(c.target - c.start) as real)
  }

  /** Under no-overshoot conditions a tick never moves the progress bar back. */
  lemma StepProgressMonotone(c: Counter, now: int)
    requires CanStep(c) && c.step > 0
    requires c.direction == Up ==> c.value <= c.target
    requires c.direction == Down ==> c.value >= c.target
    ensures CounterProgress(c) <= CounterProgress(StepCounter(c, now))
  {
    NoOvershoot(c, now);
    var c' := StepCounter(c, now);
    PercentMonotone(Travelled(c) as real, Travelled(c') as real, Abs(c.target - c.start) as real);
  }
}

=== FILE: store.dfy ===
/** The store actions of `store.ts` (the same transitions appear as the
    `actions` object of the vanilla `app.js`). Each action is a pure function
    of the current state, the wall-clock reading `now` that the source takes
    from `Date.now()`, and, for additions and laps, the id that `nanoid()`
    would have generated. An id no entity carries leaves the state as it was. */
module Store {
  import opened Wrappers
  import opened Text
  import opened Entities
  import opened Collections

  // ---------------------------------------------------------------------------
  // Shared shapes
  // ---------------------------------------------------------------------------

  /** `label || fallback`: JavaScript's `||` also replaces the empty label. */
  function LabelOr(given: Option<string>, fallback: string): (r: string)
    ensures given.Some? && given.value != "" ==> r == given.value
    ensures given.None? || given.value == "" ==> r == fallback
  {
    if given.Some? && given.value != "" then given.value else fallback
  }

  predicate OnlyStopwatchesChange(s: State, s': State)
  {
    s'.theme == s.theme && s'.timers == s.timers && s'.counters == s.counters
  }

  predicate OnlyTimersChange(s: State, s': State)
  {
    s'.theme == s.theme && s'.stopwatches == s.stopwatches && s'.counters == s.counters
  }

  predicate OnlyCountersChange(s: State, s': State)
  {
    s'.theme == s.theme && s'.stopwatches == s.stopwatches && s'.timers == s.timers
  }

  /** Ids are unique within each collection (what fresh `nanoid()` values give). */
  predicate WellFormed(s: State)
  {
    && Unique(Ids(s.stopwatches, StopwatchKey))
    && Unique(Ids(s.timers, TimerKey))
    && Unique(Ids(s.counters, CounterKey))
  }

  /** The initial store: system theme, no entities. */
  const Initial: State := State(System, [], [], [])

  function SetTheme(s: State, theme: Theme): (s': State)
    ensures s'.theme == theme
    ensures s'.stopwatches == s.stopwatches && s'.timers == s.timers && s'.counters == s.counters
  {
    s.(theme := theme)
  }

  // ---------------------------------------------------------------------------
  // Stopwatches
  // ---------------------------------------------------------------------------

  function AddStopwatch(s: State, given: Option<string>, freshId: string): (s': State)
    ensures OnlyStopwatchesChange(s, s')
    ensures |s'.stopwatches| == |s.stopwatches| + 1
    ensures s'.stopwatches[..|s.stopwatches|] == s.stopwatches
    ensures var w := s'.stopwatches[|s.stopwatches|];
            && w.id == freshId && w.startedAt.None? && w.accumulatedMs == 0 && w.laps == []
            && w.color == Palette[|s.stopwatches| % 6]
            && w.name == LabelOr(given, "Stopwatch " + NatToString(|s.stopwatches| + 1))
  {
    var n := |s.stopwatches|;
    var w := Stopwatch(freshId, LabelOr(given, "Stopwatch " + NatToString(n + 1)), None, 0, [], NextColor(n));
    s.(stopwatches := s.stopwatches + [w])
  }

  function RemoveStopwatch(s: State, id: string): (s': State)
    ensures OnlyStopwatchesChange(s, s')
    ensures id !in Ids(s'.stopwatches, StopwatchKey)
    ensures forall i :: 0 <= i < |s'.stopwatches| ==> s'.stopwatches[i] in s.stopwatches
    ensures forall i :: 0 <= i < |s.stopwatches| && s.stopwatches[i].id != id ==> s.stopwatches[i] in s'.stopwatches
  {
    s.(stopwatches := Remove(s.stopwatches, StopwatchKey, id))
  }

  /** Anchor a paused stopwatch at `now`; a running one is left alone. */
  function StartWatch(w: Stopwatch, now: int): Stopwatch
  {
    if w.startedAt.None? then w.(startedAt := Some(now)) else w
  }

  function StartStopwatch(s: State, id: string, now: int): (s': State)
    ensures OnlyStopwatchesChange(s, s')
    ensures |s'.stopwatches| == |s.stopwatches|
    ensures forall i :: 0 <= i < |s.stopwatches| ==>
              s'.stopwatches[i] == s.stopwatches[i].(startedAt := s'.stopwatches[i].startedAt)
    ensures forall i :: 0 <= i < |s.stopwatches| && s.stopwatches[i].id == id ==>
              s'.stopwatches[i].startedAt.Some?
    ensures forall i :: 0 <= i < |s.stopwatches| && s.stopwatches[i].startedAt.Some? ==>
              s'.stopwatches[i] == s.stopwatches[i]
    ensures forall i :: 0 <= i < |s.stopwatches| && s.stopwatches[i].id == id && s.stopwatches[i].startedAt.None? ==>
              s'.stopwatches[i].startedAt == Some(now)
    ensures forall i :: 0 <= i < |s.stopwatches| && s.stopwatches[i].id != id ==> s'.stopwatches[i] == s.stopwatches[i]
  {
    s.(stopwatches := Update(s.stopwatches, StopwatchKey, id, (w: Stopwatch) => StartWatch(w, now)))
  }

  /** Bank the live stretch of a running stopwatch and clear its anchor. */
  function StopWatch(w: Stopwatch, now: int): Stopwatch
  {
    match w.startedAt
    case None => w
    case Some(a) => w.(startedAt := None, accumulatedMs := w.accumulatedMs + (now - a))
  }

  function StopStopwatch(s: State, id: string, now: int): (s': State)
    ensures OnlyStopwatchesChange(s, s')
    ensures |s'.stopwatches| == |s.stopwatches|
    ensures forall i :: 0 <= i < |s.stopwatches| && (s.stopwatches[i].id != id || s.stopwatches[i].startedAt.None?) ==>
              s'.stopwatches[i] == s.stopwatches[i]
    ensures forall i :: 0 <= i < |s.stopwatches| && s.stopwatches[i].id == id ==>
              var w, w' := s.stopwatches[i], s'.stopwatches[i];
              && w'.startedAt.None?
              && w'.accumulatedMs == ElapsedAt(w, now)
              && w' == w.(startedAt := None, accumulatedMs := w'.accumulatedMs)
  {
    s.(stopwatches := Update(s.stopwatches, StopwatchKey, id, (w: Stopwatch) => StopWatch(w, now)))
  }

  function ResetWatch(w: Stopwatch): Stopwatch
  {
    w.(startedAt := None, accumulatedMs := 0, laps := [])
  }

  function ResetStopwatch(s: State, id: string): (s': State)
    ensures OnlyStopwatchesChange(s, s')
    ensures |s'.stopwatches| == |s.stopwatches|
    ensures forall i :: 0 <= i < |s.stopwatches| && s.stopwatches[i].id != id ==> s'.stopwatches[i] == s.stopwatches[i]
    ensures forall i :: 0 <= i < |s.stopwatches| && s.stopwatches[i].id == id ==>
              var w, w' := s.stopwatches[i], s'.stopwatches[i];
              && w'.id == w.id && w'.name == w.name && w'.color == w.color
              && w'.laps == [] && w'.startedAt.None?
              && forall t :: ElapsedAt(w', t) == 0
  {
    s.(stopwatches := Update(s.stopwatches, StopwatchKey, id, ResetWatch))
  }

  /** `startedAtMs ? ... : 0`: the lap code tests the anchor by truthiness, so
      an anchor of 0 reads as paused there. */
  predicate AnchorTruthy(anchor: Option<int>)
  {
    anchor.Some? && anchor.value != 0
  }

  /** The total a lap records at `now`. */
  function LapTotal(w: Stopwatch, now: int): int
  {
    (if AnchorTruthy(w.startedAt) then now - w.startedAt.value else 0) + w.accumulatedMs
  }

  /** The total of the last lap, or 0 before the first lap. */
  function LastTotal(laps: seq<Lap>): int
  {
    if |laps| == 0 then 0 else laps[|laps| - 1].totalMs
  }

  function LapWatch(w: Stopwatch, now: int, lapId: string): Stopwatch
  {
    var total := LapTotal(w, now);
    w.(laps := w.laps + [Lap(lapId, now, total - LastTotal(w.laps), total)])
  }

  function LapStopwatch(s: State, id: string, now: int, lapId: string): (s': State)
    ensures OnlyStopwatchesChange(s, s')
    ensures |s'.stopwatches| == |s.stopwatches|
    ensures forall i :: 0 <= i < |s.stopwatches| && s.stopwatches[i].id != id ==> s'.stopwatches[i] == s.stopwatches[i]
    ensures forall i :: 0 <= i < |s.stopwatches| && s.stopwatches[i].id == id ==>
              var w, w' := s.stopwatches[i], s'.stopwatches[i];
              && w' == w.(laps := w'.laps)
              && |w'.laps| == |w.laps| + 1
              && w'.laps[..|w.laps|] == w.laps
              && var lap := w'.laps[|w.laps|];
                 && lap.id == lapId && lap.timestampMs == now
                 && lap.totalMs == LapTotal(w, now)
                 && lap.lapMs == lap.totalMs - LastTotal(w.laps)
  {
    s.(stopwatches := Update(s.stopwatches, StopwatchKey, id, (w: Stopwatch) => LapWatch(w, now, lapId)))
  }

  function RenameStopwatch(s: State, id: string, newName: string): (s': State)
    ensures OnlyStopwatchesChange(s, s')
    ensures |s'.stopwatches| == |s.stopwatches|
    ensures forall i :: 0 <= i < |s.stopwatches| ==>
              s'.stopwatches[i] == if s.stopwatches[i].id == id then s.stopwatches[i].(name := newName) else s.stopwatches[i]
  {
    s.(stopwatches := Update(s.stopwatches, StopwatchKey, id, (w: Stopwatch) => w.(name := newName)))
  }

  // ---------------------------------------------------------------------------
  // Timers
  // ---------------------------------------------------------------------------

  function AddTimer(s: State, presetMs: int, given: Option<string>, freshId: string): (s': State)
    ensures OnlyTimersChange(s, s')
    ensures |s'.timers| == |s.timers| + 1
    ensures s'.timers[..|s.timers|] == s.timers
    ensures var t := s'.timers[|s.timers|];
            && t.id == freshId && t.totalMs == presetMs && t.remainingMs == presetMs
            && t.startedAt.None? && t.sound == Chime
            && t.color == Palette[|s.timers| % 6]
            && t.name == LabelOr(given, "Timer " + NatToString(|s.timers| + 1))
  {
    var n := |s.timers|;
    var t := Timer(freshId, LabelOr(given, "Timer " + NatToString(n + 1)), presetMs, None, presetMs, NextColor(n), Chime);
    s.(timers := s.timers + [t])
  }

  function RemoveTimer(s: State, id: string): (s': State)
    ensures OnlyTimersChange(s, s')
    ensures id !in Ids(s'.timers, TimerKey)
    ensures forall i :: 0 <= i < |s'.timers| ==> s'.timers[i] in s.timers
    ensures forall i :: 0 <= i < |s.timers| && s.timers[i].id != id ==> s.timers[i] in s'.timers
  {
    s.(timers := Remove(s.timers, TimerKey, id))
  }

  function StartTiming(t: Timer, now: int): Timer
  {
    if t.startedAt.None? then t.(startedAt := Some(now)) else t
  }

  function StartTimer(s: State, id: string, now: int): (s': State)
    ensures OnlyTimersChange(s, s')
    ensures |s'.timers| == |s.timers|
    ensures forall i :: 0 <= i < |s.timers| ==> s'.timers[i] == s.timers[i].(startedAt := s'.timers[i].startedAt)
    ensures forall i :: 0 <= i < |s.timers| && s.timers[i].id == id ==> s'.timers[i].startedAt.Some?
    ensures forall i :: 0 <= i < |s.timers| && s.timers[i].startedAt.Some? ==> s'.timers[i] == s.timers[i]
    ensures forall i :: 0 <= i < |s.timers| && s.timers[i].id == id && s.timers[i].startedAt.None? ==>
              s'.timers[i].startedAt == Some(now)
    ensures forall i :: 0 <= i < |s.timers| && s.timers[i].id != id ==> s'.timers[i] == s.timers[i]
  {
    s.(timers := Update(s.timers, TimerKey, id, (t: Timer) => StartTiming(t, now)))
  }

  /** Fold the live stretch of a running timer into its remainder, never below zero. */
  function StopTiming(t: Timer, now: int): Timer
  {
    match t.startedAt
    case None => t
    case Some(a) =>
      var remain := if t.remainingMs - (now - a) >= 0 then t.remainingMs - (now - a) else 0;
      t.(startedAt := None, remainingMs := remain)
  }

  function StopTimer(s: State, id: string, now: int): (s': State)
    ensures OnlyTimersChange(s, s')
    ensures |s'.timers| == |s.timers|
    ensures forall i :: 0 <= i < |s.timers| && (s.timers[i].id != id || s.timers[i].startedAt.None?) ==>
              s'.timers[i] == s.timers[i]
    ensures forall i :: 0 <= i < |s.timers| && s.timers[i].id == id && s.timers[i].startedAt.Some? ==>
              var t, t' := s.timers[i], s'.timers[i];
              && t'.startedAt.None?
              && t'.remainingMs == RemainingAt(t, now)
              && t'.remainingMs >= 0
              && (now >= t.startedAt.value && t.remainingMs >= 0 ==> t'.remainingMs <= t.remainingMs)
              && t' == t.(startedAt := None, remainingMs := t'.remainingMs)
  {
    s.(timers := Update(s.timers, TimerKey, id, (t: Timer) => StopTiming(t, now)))
  }

  function ResetTiming(t: Timer): Timer
  {
    t.(startedAt := None, remainingMs := t.totalMs)
  }

  function ResetTimer(s: State, id: string): (s': State)
    ensures OnlyTimersChange(s, s')
    ensures |s'.timers| == |s.timers|
    ensures forall i :: 0 <= i < |s.timers| && s.timers[i].id != id ==> s'.timers[i] == s.timers[i]
    ensures forall i :: 0 <= i < |s.timers| && s.timers[i].id == id ==>
              var t, t' := s.timers[i], s'.timers[i];
              && t'.startedAt.None? && t' == t.(startedAt := None, remainingMs := t'.remainingMs)
              && forall now :: RemainingAt(t', now) == t.totalMs
  {
    s.(timers := Update(s.timers, TimerKey, id, ResetTiming))
  }

  /** Overwrites the stored remainder only: a running timer keeps its old
      anchor, so the stretch already run is taken off the new value too. */
  function SetTimerRemaining(s: State, id: string, ms: int): (s': State)
    ensures OnlyTimersChange(s, s')
    ensures |s'.timers| == |s.timers|
    ensures forall i :: 0 <= i < |s.timers| ==>
              s'.timers[i] == if s.timers[i].id == id then s.timers[i].(remainingMs := ms) else s.timers[i]
  {
    s.(timers := Update(s.timers, TimerKey, id, (t: Timer) => t.(remainingMs := ms)))
  }

  function RenameTimer(s: State, id: string, newName: string): (s': State)
    ensures OnlyTimersChange(s, s')
    ensures |s'.timers| == |s.timers|
    ensures forall i :: 0 <= i < |s.timers| ==>
              s'.timers[i] == if s.timers[i].id == id then s.timers[i].(name := newName) else s.timers[i]
  {
    s.(timers := Update(s.timers, TimerKey, id, (t: Timer) => t.(name := newName)))
  }

  function SetTimerSound(s: State, id: string, sound: Sound): (s': State)
    ensures OnlyTimersChange(s, s')
    ensures |s'.timers| == |s.timers|
    ensures forall i :: 0 <= i < |s.timers| ==>
              s'.timers[i] == if s.timers[i].id == id then s.timers[i].(sound := sound) else s.timers[i]
  {
    s.(timers := Update(s.timers, TimerKey, id, (t: Timer) => t.(sound := sound)))
  }

  // ---------------------------------------------------------------------------
  // Counters
  // ---------------------------------------------------------------------------

  /** The optional configuration `addCounter` accepts (every counter field but
      the id, the value and the anchor); `None` is an absent key. */
  datatype CounterConfig = CounterConfig(
    name: Option<string>,
    start: Option<int>,
    target: Option<int>,
    direction: Option<Direction>,
    step: Option<int>,
    intervalMs: Option<int>,
    color: Option<string>)

  /** A partial counter as `setCounterConfig` merges it: any field may be
      given; `startedAt := Some(None)` writes a `null` anchor. */
  datatype CounterPatch = CounterPatch(
    id: Option<string>,
    name: Option<string>,
    start: Option<int>,
    target: Option<int>,
    value: Option<int>,
    direction: Option<Direction>,
    step: Option<int>,
    intervalMs: Option<int>,
    startedAt: Option<Option<int>>,
    color: Option<string>)

  const NoChange: CounterPatch := CounterPatch(None, None, None, None, None, None, None, None, None, None)

  /** `{ ...c, ...patch }`: every given field overrides, every absent one stays. */
  function ApplyPatch(c: Counter, p: CounterPatch): Counter
  {
    Counter(
      p.id.GetOr(c.id), p.name.GetOr(c.name), p.start.GetOr(c.start), p.target.GetOr(c.target),
      p.value.GetOr(c.value), p.direction.GetOr(c.direction), p.step.GetOr(c.step),
      p.intervalMs.GetOr(c.intervalMs), p.startedAt.GetOr(c.startedAt), p.color.GetOr(c.color))
  }

  /** Two patches applied in turn: the later one wins on every key it gives. */
  function MergePatches(first: CounterPatch, second: CounterPatch): CounterPatch
  {
    CounterPatch(
      if second.id.Some? then second.id else first.id,
      if second.name.Some? then second.name else first.name,
      if second.start.Some? then second.start else first.start,
      if second.target.Some? then second.target else first.target,
      if second.value.Some? then second.value else first.value,
      if second.direction.Some? then second.direction else first.direction,
      if second.step.Some? then second.step else first.step,
      if second.intervalMs.Some? then second.intervalMs else first.intervalMs,
      if second.startedAt.Some? then second.startedAt else first.startedAt,
      if second.color.Some? then second.color else first.color)
  }

  function AddCounter(s: State, config: CounterConfig, freshId: string): (s': State)
    ensures OnlyCountersChange(s, s')
    ensures |s'.counters| == |s.counters| + 1
    ensures s'.counters[..|s.counters|] == s.counters
    ensures var c := s'.counters[|s.counters|];
            && c.id == freshId && c.startedAt.None?
            && c.value == c.start
            && c.start == config.start.GetOr(0)
            && c.target == config.target.GetOr(100)
            && c.direction == config.direction.GetOr(Up)
            && c.step == config.step.GetOr(1)
            && c.intervalMs == config.intervalMs.GetOr(100)
            && c.name == config.name.GetOr("Counter " + NatToString(|s.counters| + 1))
            && c.color == config.color.GetOr(Palette[|s.counters| % 6])
  {
    var n := |s.counters|;
    var base := Counter(freshId, "Counter " + NatToString(n + 1), 0, 100, 0, Up, 1, 100, None, NextColor(n));
    var merged := Counter(
      base.id, config.name.GetOr(base.name), config.start.GetOr(base.start),
      config.target.GetOr(base.target), base.value, config.direction.GetOr(base.direction),
      config.step.GetOr(base.step), config.intervalMs.GetOr(base.intervalMs), base.startedAt,
      config.color.GetOr(base.color));
    s.(counters := s.counters + [merged.(value := config.start.GetOr(base.start))])
  }

  function RemoveCounter(s: State, id: string): (s': State)
    ensures OnlyCountersChange(s, s')
    ensures id !in Ids(s'.counters, CounterKey)
    ensures forall i :: 0 <= i < |s'.counters| ==> s'.counters[i] in s.counters
    ensures forall i :: 0 <= i < |s.counters| && s.counters[i].id != id ==> s.counters[i] in s'.counters
  {
    s.(counters := Remove(s.counters, CounterKey, id))
  }

  function StartCounting(c: Counter, now: int): Counter
  {
    if c.startedAt.None? then c.(startedAt := Some(now)) else c
  }

  function StartCounter(s: State, id: string, now: int): (s': State)
    ensures OnlyCountersChange(s, s')
    ensures |s'.counters| == |s.counters|
    ensures forall i :: 0 <= i < |s.counters| ==> s'.counters[i] == s.counters[i].(startedAt := s'.counters[i].startedAt)
    ensures forall i :: 0 <= i < |s.counters| && s.counters[i].id == id ==> s'.counters[i].startedAt.Some?
    ensures forall i :: 0 <= i < |s.counters| && s.counters[i].startedAt.Some? ==> s'.counters[i] == s.counters[i]
    ensures forall i :: 0 <= i < |s.counters| && s.counters[i].id == id && s.counters[i].startedAt.None? ==>
              s'.counters[i].startedAt == Some(now)
    ensures forall i :: 0 <= i < |s.counters| && s.counters[i].id != id ==> s'.counters[i] == s.counters[i]
  {
    s.(counters := Update(s.counters, CounterKey, id, (c: Counter) => StartCounting(c, now)))
  }

  /** Pausing a counter clears its anchor whether or not it was running. */
  function StopCounter(s: State, id: string): (s': State)
    ensures OnlyCountersChange(s, s')
    ensures |s'.counters| == |s.counters|
    ensures forall i :: 0 <= i < |s.counters| ==>
              s'.counters[i] == if s.counters[i].id == id then s.counters[i].(startedAt := None) else s.counters[i]
  {
    s.(counters := Update(s.counters, CounterKey, id, (c: Counter) => c.(startedAt := None)))
  }

  function ResetCounting(c: Counter): Counter
  {
    c.(value := c.start, startedAt := None)
  }

  function ResetCounter(s: State, id: string): (s': State)
    ensures OnlyCountersChange(s, s')
    ensures |s'.counters| == |s.counters|
    ensures forall i :: 0 <= i < |s.counters| && s.counters[i].id != id ==> s'.counters[i] == s.counters[i]
    ensures forall i :: 0 <= i < |s.counters| && s.counters[i].id == id ==>
              var c, c' := s.counters[i], s'.counters[i];
              && c'.value == c.start && c'.startedAt.None?
              && c' == c.(value := c'.value, startedAt := None)
  {
    s.(counters := Update(s.counters, CounterKey, id, ResetCounting))
  }

  function SetCounterConfig(s: State, id: string, patch: CounterPatch): (s': State)
    ensures OnlyCountersChange(s, s')
    ensures |s'.counters| == |s.counters|
    ensures forall i :: 0 <= i < |s.counters| ==>
              s'.counters[i] == if s.counters[i].id == id then ApplyPatch(s.counters[i], patch) else s.counters[i]
  {
    s.(counters := Update(s.counters, CounterKey, id, (c: Counter) => ApplyPatch(c, patch)))
  }

  function RenameCounter(s: State, id: string, newName: string): (s': State)
    ensures OnlyCountersChange(s, s')
    ensures |s'.counters| == |s.counters|
    ensures forall i :: 0 <= i < |s.counters| ==>
              s'.counters[i] == if s.counters[i].id == id then s.counters[i].(name := newName) else s.counters[i]
  {
    s.(counters := Update(s.counters, CounterKey, id, (c: Counter) => c.(name := newName)))
  }
}

=== FILE: store_laws.dfy ===
/** Laws of the store actions: what an action on an unknown id does, how an
    addition and a removal cancel, which actions are idempotent, how running
    time is banked across start/stop sessions, why the laps of a stopwatch
    stay consistent, and which actions keep ids unique. */
module StoreLaws {
  import opened Wrappers
  import opened Entities
  import opened Collections
  import opened Store

  // ---------------------------------------------------------------------------
  // Unknown ids
  // ---------------------------------------------------------------------------

  lemma UnknownStopwatchUnchanged(s: State, id: string, now: int, lapId: string, newName: string)
    requires id !in Ids(s.stopwatches, StopwatchKey)
    ensures StartStopwatch(s, id, now) == s
    ensures StopStopwatch(s, id, now) == s
    ensures ResetStopwatch(s, id) == s
    ensures LapStopwatch(s, id, now, lapId) == s
    ensures RenameStopwatch(s, id, newName) == s
    ensures RemoveStopwatch(s, id) == s
  {
    UpdateAbsentAny(s.stopwatches, StopwatchKey, id);
    RemoveAbsent(s.stopwatches, StopwatchKey, id);
  }

  lemma UnknownTimerUnchanged(s: State, id: string, now: int, ms: int, newName: string, sound: Sound)
    requires id !in Ids(s.timers, TimerKey)
    ensures StartTimer(s, id, now) == s
    ensures StopTimer(s, id, now) == s
    ensures ResetTimer(s, id) == s
    ensures SetTimerRemaining(s, id, ms) == s
    ensures RenameTimer(s, id, newName) == s
    ensures SetTimerSound(s, id, sound) == s
    ensures RemoveTimer(s, id) == s
  {
    UpdateAbsentAny(s.timers, TimerKey, id);
    RemoveAbsent(s.timers, TimerKey, id);
  }

  lemma UnknownCounterUnchanged(s: State, id: string, now: int, patch: CounterPatch, newName: string)
    requires id !in Ids(s.counters, CounterKey)
    ensures StartCounter(s, id, now) == s
    ensures StopCounter(s, id) == s
    ensures ResetCounter(s, id) == s
    ensures SetCounterConfig(s, id, patch) == s
    ensures RenameCounter(s, id, newName) == s
    ensures RemoveCounter(s, id) == s
  {
    UpdateAbsentAny(s.counters, CounterKey, id);
    RemoveAbsent(s.counters, CounterKey, id);
  }

  // ---------------------------------------------------------------------------
  // Additions and removals
  // ---------------------------------------------------------------------------

  /** Removing a stopwatch just added under a fresh id restores the state. */
  lemma AddThenRemoveStopwatch(s: State, given: Option<string>, freshId: string)
    requires freshId !in Ids(s.stopwatches, StopwatchKey)
    ensures RemoveStopwatch(AddStopwatch(s, given, freshId), freshId) == s
  {
    var s' := AddStopwatch(s, given, freshId);
    var w := s'.stopwatches[|s.stopwatches|];
    assert s'.stopwatches == s.stopwatches + [w];
    RemoveAppended(s.stopwatches, StopwatchKey, w);
  }

  lemma AddThenRemoveTimer(s: State, presetMs: int, given: Option<string>, freshId: string)
    requires freshId !in Ids(s.timers, TimerKey)
    ensures RemoveTimer(AddTimer(s, presetMs, given, freshId), freshId) == s
  {
    var s' := AddTimer(s, presetMs, given, freshId);
    var t := s'.timers[|s.timers|];
    assert s'.timers == s.timers + [t];
    RemoveAppended(s.timers, TimerKey, t);
  }

  lemma AddThenRemoveCounter(s: State, config: CounterConfig, freshId: string)
    requires freshId !in Ids(s.counters, CounterKey)
    ensures RemoveCounter(AddCounter(s, config, freshId), freshId) == s
  {
    var s' := AddCounter(s, config, freshId);
    var c := s'.counters[|s.counters|];
    assert s'.counters == s.counters + [c];
    RemoveAppended(s.counters, CounterKey, c);
  }

  /** With unique ids, removal cuts out exactly the stopwatch carrying the id. */
  lemma RemoveStopwatchAt(s: State, k: nat)
    requires WellFormed(s) && k < |s.stopwatches|
    ensures RemoveStopwatch(s, s.stopwatches[k].id).stopwatches == s.stopwatches[..k] + s.stopwatches[k + 1..]
  {
    RemoveSplice(s.stopwatches, StopwatchKey, k);
  }

  lemma RemoveTimerAt(s: State, k: nat)
    requires WellFormed(s) && k < |s.timers|
    ensures RemoveTimer(s, s.timers[k].id).timers == s.timers[..k] + s.timers[k + 1..]
  {
    RemoveSplice(s.timers, TimerKey, k);
  }

  lemma RemoveCounterAt(s: State, k: nat)
    requires WellFormed(s) && k < |s.counters|
    ensures RemoveCounter(s, s.counters[k].id).counters == s.counters[..k] + s.counters[k + 1..]
  {
    RemoveSplice(s.counters, CounterKey, k);
  }

  // ---------------------------------------------------------------------------
  // Idempotence and last-write-wins
  // ---------------------------------------------------------------------------

  /** Starting twice keeps the first anchor; stopping twice banks time once. */
  lemma StopwatchStartStopIdempotent(s: State, id: string, t1: int, t2: int)
    ensures StartStopwatch(StartStopwatch(s, id, t1), id, t2) == StartStopwatch(s, id, t1)
    ensures StopStopwatch(StopStopwatch(s, id, t1), id, t2) == StopStopwatch(s, id, t1)
    ensures ResetStopwatch(ResetStopwatch(s, id), id) == ResetStopwatch(s, id)
  {
  }

  lemma TimerStartStopIdempotent(s: State, id: string, t1: int, t2: int)
    ensures StartTimer(StartTimer(s, id, t1), id, t2) == StartTimer(s, id, t1)
    ensures StopTimer(StopTimer(s, id, t1), id, t2) == StopTimer(s, id, t1)
    ensures ResetTimer(ResetTimer(s, id), id) == ResetTimer(s, id)
  {
  }

  lemma CounterStartStopIdempotent(s: State, id: string, t1: int, t2: int)
    ensures StartCounter(StartCounter(s, id, t1), id, t2) == StartCounter(s, id, t1)
    ensures StopCounter(StopCounter(s, id), id) == StopCounter(s, id)
    ensures ResetCounter(ResetCounter(s, id), id) == ResetCounter(s, id)
  {
  }

  /** Of two renames of the same entity the later one wins. */
  lemma RenameLastWins(s: State, id: string, a: string, b: string)
    ensures RenameStopwatch(RenameStopwatch(s, id, a), id, b) == RenameStopwatch(s, id, b)
    ensures RenameTimer(RenameTimer(s, id, a), id, b) == RenameTimer(s, id, b)
    ensures RenameCounter(RenameCounter(s, id, a), id, b) == RenameCounter(s, id, b)
  {
  }

  lemma SetTimerRemainingLastWins(s: State, id: string, a: int, b: int)
    ensures SetTimerRemaining(SetTimerRemaining(s, id, a), id, b) == SetTimerRemaining(s, id, b)
  {
  }

  /** The empty patch leaves a counter alone; applying two patches in turn is
      applying their merge. */
  lemma PatchLaws(c: Counter, p: CounterPatch, q: CounterPatch)
    ensures ApplyPatch(c, NoChange) == c
    ensures ApplyPatch(ApplyPatch(c, p), q) == ApplyPatch(c, MergePatches(p, q))
    ensures MergePatches(p, p) == p
  {
  }

  /** Two configuration changes of one counter compose into their merge,
      provided the first does not move the counter to another id. */
  lemma SetCounterConfigCompose(s: State, id: string, p: CounterPatch, q: CounterPatch)
    requires p.id.None? || p.id == Some(id)
    ensures SetCounterConfig(SetCounterConfig(s, id, p), id, q) == SetCounterConfig(s, id, MergePatches(p, q))
  {
    var s1 := SetCounterConfig(s, id, p);
    var s2 := SetCounterConfig(s1, id, q);
    var s3 := SetCounterConfig(s, id, MergePatches(p, q));
    forall i | 0 <= i < |s.counters|
      ensures s2.counters[i] == s3.counters[i]
    {
      PatchComposeAt(s.counters[i], id, p, q);
    }
    assert s2.counters == s3.counters;
  }

  /** One counter under the two changes and under their merge. */
  lemma PatchComposeAt(c: Counter, id: string, p: CounterPatch, q: CounterPatch)
    requires p.id.None? || p.id == Some(id)
    ensures var c1 := if c.id == id then ApplyPatch(c, p) else c;
            (if c1.id == id then ApplyPatch(c1, q) else c1)
            == if c.id == id then ApplyPatch(c, MergePatches(p, q)) else c
  {
    PatchLaws(c, p, q);
  }

  // ---------------------------------------------------------------------------
  // Running time across actions
  // ---------------------------------------------------------------------------

  /** Starting and stopping never change the time a stopwatch shows at that
      instant: the display is continuous across both actions. */
  lemma StopwatchDisplayContinuous(w: Stopwatch, now: int)
    ensures ElapsedAt(StartWatch(w, now), now) == ElapsedAt(w, now)
    ensures ElapsedAt(StopWatch(w, now), now) == ElapsedAt(w, now)
    ensures StopWatch(w, now).startedAt.None?
  {
  }

  /** A paused stopwatch run from `t0` to `t1` and then from `t2` to `t3`
      banks exactly the two stretches. */
  lemma StopwatchSessions(s: State, id: string, t0: int, t1: int, t2: int, t3: int)
    requires forall i :: 0 <= i < |s.stopwatches| && s.stopwatches[i].id == id ==> s.stopwatches[i].startedAt.None?
    ensures var s' := StopStopwatch(StartStopwatch(StopStopwatch(StartStopwatch(s, id, t0), id, t1), id, t2), id, t3);
            && |s'.stopwatches| == |s.stopwatches|
            && forall i :: 0 <= i < |s.stopwatches| && s.stopwatches[i].id == id ==>
                 s'.stopwatches[i] == s.stopwatches[i].(accumulatedMs := s.stopwatches[i].accumulatedMs + (t1 - t0) + (t3 - t2))
  {
  }

  /** A timer's display is continuous across stop, and across start as long
      as the stored remainder is not negative. */
  lemma TimerDisplayContinuous(t: Timer, now: int)
    requires t.startedAt.Some? || t.remainingMs >= 0
    ensures RemainingAt(StartTiming(t, now), now) == RemainingAt(t, now)
    ensures RemainingAt(StopTiming(t, now), now) == RemainingAt(t, now)
  {
  }

  /** `setTimerRemaining` on a running timer keeps the old anchor: the new
      value is counted down from the original start, not from the edit. */
  lemma SetTimerRemainingKeepsAnchor(s: State, id: string, ms: int, now: int, i: nat)
    requires i < |s.timers| && s.timers[i].id == id && s.timers[i].startedAt.Some?
    requires now - s.timers[i].startedAt.value <= ms
    ensures RemainingAt(SetTimerRemaining(s, id, ms).timers[i], now) == ms - (now - s.timers[i].startedAt.value)
  {
  }

  // ---------------------------------------------------------------------------
  // Laps
  // ---------------------------------------------------------------------------

  /** Every lap's split is its total less the previous lap's total. */
  predicate LapsConsistent(laps: seq<Lap>)
  {
    forall i :: 0 <= i < |laps| ==> laps[i].lapMs == laps[i].totalMs - LastTotal(laps[..i])
  }

  function SumSplits(laps: seq<Lap>): int
  {
    if |laps| == 0 then 0 else SumSplits(laps[..|laps| - 1]) + laps[|laps| - 1].lapMs
  }

  /** Recording a lap keeps the laps consistent. */
  lemma LapKeepsConsistent(w: Stopwatch, now: int, lapId: string)
    requires LapsConsistent(w.laps)
    ensures LapsConsistent(LapWatch(w, now, lapId).laps)
  {
    var laps' := LapWatch(w, now, lapId).laps;
    forall i | 0 <= i < |laps'|
      ensures laps'[i].lapMs == laps'[i].totalMs - LastTotal(laps'[..i])
    {
      if i < |w.laps| {
        assert laps'[..i] == w.laps[..i];
      } else {
        assert laps'[..i] == w.laps;
      }
    }
  }

  /** The splits of consistent laps add up to the last total. */
  lemma {:induction false} SplitsSumToTotal(laps: seq<Lap>)
    requires LapsConsistent(laps)
    ensures SumSplits(laps) == LastTotal(laps)
    decreases |laps|
  {
    if |laps| > 0 {
      var init := laps[..|laps| - 1];
      assert LapsConsistent(init) by {
        forall i | 0 <= i < |init|
          ensures init[i].lapMs == init[i].totalMs - LastTotal(init[..i])
        {
          assert init[..i] == laps[..i];
        }
      }
      SplitsSumToTotal(init);
      assert laps[..|laps| - 1] == init;
    }
  }

  /** Two laps of a paused stopwatch record the same total, the second with a
      split of zero: lap totals need not strictly increase. */
  lemma PausedLapsRepeatTotal(w: Stopwatch, t1: int, t2: int, id1: string, id2: string)
    requires w.startedAt.None?
    ensures var laps := LapWatch(LapWatch(w, t1, id1), t2, id2).laps;
            && |laps| == |w.laps| + 2
            && laps[|w.laps| + 1].totalMs == laps[|w.laps|].totalMs == w.accumulatedMs
            && laps[|w.laps| + 1].lapMs == 0
  {
  }

  /** A lap records the time the stopwatch shows, unless its anchor is 0. */
  lemma LapTotalIsElapsed(w: Stopwatch, now: int)
    requires w.startedAt != Some(0)
    ensures LapTotal(w, now) == ElapsedAt(w, now)
  {
  }

  /** With an anchor of 0 the truthiness test treats a running stopwatch as
      paused, so the lap total leaves out the live stretch. */
  lemma LapTotalZeroAnchor(w: Stopwatch, now: int)
    requires w.startedAt == Some(0) && now != 0
    ensures LapTotal(w, now) == w.accumulatedMs
    ensures LapTotal(w, now) != ElapsedAt(w, now)
  {
  }

  // ---------------------------------------------------------------------------
  // Unique ids
  // ---------------------------------------------------------------------------

  lemma StopwatchUpdatesKeepIds(s: State, id: string, now: int, lapId: string, newName: string)
    ensures Ids(StartStopwatch(s, id, now).stopwatches, StopwatchKey) == Ids(s.stopwatches, StopwatchKey)
    ensures Ids(StopStopwatch(s, id, now).stopwatches, StopwatchKey) == Ids(s.stopwatches, StopwatchKey)
    ensures Ids(ResetStopwatch(s, id).stopwatches, StopwatchKey) == Ids(s.stopwatches, StopwatchKey)
    ensures Ids(LapStopwatch(s, id, now, lapId).stopwatches, StopwatchKey) == Ids(s.stopwatches, StopwatchKey)
    ensures Ids(RenameStopwatch(s, id, newName).stopwatches, StopwatchKey) == Ids(s.stopwatches, StopwatchKey)
  {
  }

  lemma TimerUpdatesKeepIds(s: State, id: string, now: int, ms: int, newName: string, sound: Sound)
    ensures Ids(StartTimer(s, id, now).timers, TimerKey) == Ids(s.timers, TimerKey)
    ensures Ids(StopTimer(s, id, now).timers, TimerKey) == Ids(s.timers, TimerKey)
    ensures Ids(ResetTimer(s, id).timers, TimerKey) == Ids(s.timers, TimerKey)
    ensures Ids(SetTimerRemaining(s, id, ms).timers, TimerKey) == Ids(s.timers, TimerKey)
    ensures Ids(RenameTimer(s, id, newName).timers, TimerKey) == Ids(s.timers, TimerKey)
    ensures Ids(SetTimerSound(s, id, sound).timers, TimerKey) == Ids(s.timers, TimerKey)
  {
  }

  lemma CounterUpdatesKeepIds(s: State, id: string, now: int, patch: CounterPatch, newName: string)
    requires patch.id.None? || patch.id == Some(id)
    ensures Ids(StartCounter(s, id, now).counters, CounterKey) == Ids(s.counters, CounterKey)
    ensures Ids(StopCounter(s, id).counters, CounterKey) == Ids(s.counters, CounterKey)
    ensures Ids(ResetCounter(s, id).counters, CounterKey) == Ids(s.counters, CounterKey)
    ensures Ids(SetCounterConfig(s, id, patch).counters, CounterKey) == Ids(s.counters, CounterKey)
    ensures Ids(RenameCounter(s, id, newName).counters, CounterKey) == Ids(s.counters, CounterKey)
  {
  }

  /** A configuration change that carries another counter's id duplicates it. */
  lemma SetCounterConfigCanDuplicateIds(s: State, id: string, other: string)
    requires |s.counters| == 2 && s.counters[0].id == id && s.counters[1].id == other && id != other
    ensures WellFormed(s) ==> !WellFormed(SetCounterConfig(s, id, NoChange.(id := Some(other))))
  {
    var s' := SetCounterConfig(s, id, NoChange.(id := Some(other)));
    assert Ids(s'.counters, CounterKey)[0] == Ids(s'.counters, CounterKey)[1];
  }

  /** A change that keeps the ids of every collection keeps them unique. */
  lemma SameIdsWellFormed(s: State, s': State)
    requires WellFormed(s)
    requires Ids(s'.stopwatches, StopwatchKey) == Ids(s.stopwatches, StopwatchKey)
    requires Ids(s'.timers, TimerKey) == Ids(s.timers, TimerKey)
    requires Ids(s'.counters, CounterKey) == Ids(s.counters, CounterKey)
    ensures WellFormed(s')
  {
  }

  /** Additions with fresh ids and removals keep ids unique. */
  lemma AddRemoveKeepWellFormed(s: State, given: Option<string>, presetMs: int, config: CounterConfig, freshId: string, id: string)
    requires WellFormed(s)
    ensures freshId !in Ids(s.stopwatches, StopwatchKey) ==> WellFormed(AddStopwatch(s, given, freshId))
    ensures freshId !in Ids(s.timers, TimerKey) ==> WellFormed(AddTimer(s, presetMs, given, freshId))
    ensures freshId !in Ids(s.counters, CounterKey) ==> WellFormed(AddCounter(s, config, freshId))
    ensures WellFormed(RemoveStopwatch(s, id))
    ensures WellFormed(RemoveTimer(s, id))
    ensures WellFormed(RemoveCounter(s, id))
  {
    if freshId !in Ids(s.stopwatches, StopwatchKey) {
      var s' := AddStopwatch(s, given, freshId);
      assert s'.stopwatches == s.stopwatches + [s'.stopwatches[|s.stopwatches|]];
      AppendKeepsUnique(s.stopwatches, StopwatchKey, s'.stopwatches[|s.stopwatches|]);
    }
    if freshId !in Ids(s.timers, TimerKey) {
      var s' := AddTimer(s, presetMs, given, freshId);
      assert s'.timers == s.timers + [s'.timers[|s.timers|]];
      AppendKeepsUnique(s.timers, TimerKey, s'.timers[|s.timers|]);
    }
    if freshId !in Ids(s.counters, CounterKey) {
      var s' := AddCounter(s, config, freshId);
      assert s'.counters == s.counters + [s'.counters[|s.counters|]];
      AppendKeepsUnique(s.counters, CounterKey, s'.counters[|s.counters|]);
    }
    RemoveKeepsUnique(s.stopwatches, StopwatchKey, id);
    RemoveKeepsUnique(s.timers, TimerKey, id);
    RemoveKeepsUnique(s.counters, CounterKey, id);
  }
}

=== FILE: text.dfy ===
/** Decimal rendering, padding, joining and splitting of strings: the small
    part of JavaScript's string library that the formatters and the CSV
    export rely on (`Number.prototype.toString`, `padStart`, `join`,
    `split`). */
module Text {

  predicate IsDigit(c: char) {
    '0' <= c <= '9'
  }

  predicate AllDigits(s: string) {
    forall i {:trigger IsDigit(s[i])} :: 0 <= i < |s| ==> IsDigit(s[i])
  }

  function DigitValue(c: char): nat
    requires IsDigit(c)
  {
    c as int - '0' as int
  }

  function DigitChar(d: nat): (c: char)
    requires d < 10
    ensures IsDigit(c) && DigitValue(c) == d
  {
    if d == 0 then '0' else if d == 1 then '1' else if d == 2 then '2'
    else if d == 3 then '3' else if d == 4 then '4' else if d == 5 then '5'
    else if d == 6 then '6' else if d == 7 then '7' else if d == 8 then '8'
    else '9'
  }

  /** The number a string of decimal digits denotes (leading zeros allowed). */
  function DigitsValue(s: string): nat
    requires AllDigits(s)
  {
    if |s| == 0 then 0 else DigitsValue(s[..|s| - 1]) * 10 + DigitValue(s[|s| - 1])
  }

  /** Appending a digit to a digit string shifts its value one place. */
  lemma AppendDigit(prefix: string, d: nat)
    requires AllDigits(prefix) && d < 10
    ensures AllDigits(prefix + [DigitChar(d)])
    ensures DigitsValue(prefix + [DigitChar(d)]) == DigitsValue(prefix) * 10 + d
  {
    var s := prefix + [DigitChar(d)];
    assert s[..|s| - 1] == prefix;
  }

  /** `n.toString()` for a non-negative integer: shortest decimal form. */
  function NatToString(n: nat): (s: string)
    ensures |s| >= 1 && AllDigits(s)
    ensures DigitsValue(s) == n
    ensures |s| > 1 ==> s[0] != '0'
    ensures n < 10 <==> |s| == 1
    ensures n < 100 ==> |s| <= 2
    ensures n < 1000 ==> |s| <= 3
    decreases n
  {
    if n < 10 then [DigitChar(n)]
    else
      var prefix := NatToString(n / 10);
      AppendDigit(prefix, n % 10);
      var s := prefix + [DigitChar(n % 10)];
      assert s[0] == prefix[0];
      assert n == n / 10 * 10 + n % 10;
      assert n < 100 ==> n / 10 < 10;
      assert n < 1000 ==> n / 10 < 100;
      s
  }

  /** `v.toString()` for any integer: a minus sign before a negative value. */
  function IntToString(v: int): (s: string)
    ensures 0 <= v ==> s == NatToString(v)
    ensures v < 0 ==> s == "-" + NatToString(-v)
  {
    if v < 0 then "-" + NatToString(-v) else NatToString(v)
  }

  /** `n` copies of `c`. */
  function Repeat(c: char, n: nat): (s: string)
    ensures |s| == n
    ensures forall i :: 0 <= i < n ==> s[i] == c
  {
    if n == 0 then [] else [c] + Repeat(c, n - 1)
  }

  /** `s.padStart(width, c)` for a one-character pad string. */
  function PadStart(s: string, width: nat, c: char): (r: string)
    ensures |r| == if |s| < width then width else |s|
  {
    if |s| >= width then s else Repeat(c, width - |s|) + s
  }

  /** `parts.join(sep)`. */
  function Join(parts: seq<string>, sep: string): string
  {
    if |parts| == 0 then ""
    else if |parts| == 1 then parts[0]
    else parts[0] + sep + Join(parts[1..], sep)
  }

  /** `s.split(sep)` for a one-character separator: the pieces between
      separators, so there is always at least one (possibly empty) piece. */
  function Split(s: string, sep: char): (parts: seq<string>)
    ensures |parts| >= 1
    decreases |s|
  {
    if |s| == 0 then [""]
    else
      var rest := Split(s[1..], sep);
      if s[0] == sep then [""] + rest else [[s[0]] + rest[0]] + rest[1..]
  }

  lemma {:induction false} ZerosValue(z: nat)
    ensures AllDigits(Repeat('0', z)) && DigitsValue(Repeat('0', z)) == 0
  {
    if z > 0 {
      assert Repeat('0', z)[..z - 1] == Repeat('0', z - 1);
      ZerosValue(z - 1);
    }
  }

  /** Zero padding on the left does not change the number a digit string denotes. */
  lemma {:induction false} LeadingZerosValue(z: nat, s: string)
    requires AllDigits(s)
    ensures AllDigits(Repeat('0', z) + s)
    ensures DigitsValue(Repeat('0', z) + s) == DigitsValue(s)
    decreases |s|
  {
    var t := Repeat('0', z) + s;
    if |s| == 0 {
      assert t == Repeat('0', z);
      ZerosValue(z);
    } else {
      assert t[..|t| - 1] == Repeat('0', z) + s[..|s| - 1];
      LeadingZerosValue(z, s[..|s| - 1]);
    }
  }

  /** A piece without the separator splits into itself. */
  lemma {:induction false} SplitNoSeparator(s: string, sep: char)
    requires sep !in s
    ensures Split(s, sep) == [s]
    decreases |s|
  {
    if |s| > 0 {
      assert sep !in s[1..];
      SplitNoSeparator(s[1..], sep);
      assert [s[0]] + s[1..] == s;
    }
  }

  lemma {:induction false} SplitAfterPiece(a: string, sep: char, b: string)
    requires sep !in a
    ensures Split(a + [sep] + b, sep) == [a] + Split(b, sep)
    decreases |a|
  {
    var s := a + [sep] + b;
    if |a| == 0 {
      assert s[1..] == b;
    } else {
      assert s[1..] == a[1..] + [sep] + b;
      assert sep !in a[1..];
      SplitAfterPiece(a[1..], sep, b);
      assert [a[0]] + a[1..] == a;
    }
  }

  /** Splitting a join recovers the pieces, provided no piece holds the separator. */
  lemma {:induction false} SplitJoin(parts: seq<string>, sep: char)
    requires |parts| >= 1
    requires forall i :: 0 <= i < |parts| ==> sep !in parts[i]
    ensures Split(Join(parts, [sep]), sep) == parts
    decreases |parts|
  {
    if |parts| == 1 {
      SplitNoSeparator(parts[0], sep);
    } else {
      assert Join(parts, [sep]) == parts[0] + [sep] + Join(parts[1..], [sep]);
      SplitAfterPiece(parts[0], sep, Join(parts[1..], [sep]));
      SplitJoin(parts[1..], sep);
      assert [parts[0]] + parts[1..] == parts;
    }
  }

  /** A joined string holds only characters of its pieces and of the separator. */
  lemma {:induction false} JoinChars(parts: seq<string>, sep: string, c: char)
    requires c !in sep
    requires forall i :: 0 <= i < |parts| ==> c !in parts[i]
    ensures c !in Join(parts, sep)
    decreases |parts|
  {
    if |parts| > 1 {
      JoinChars(parts[1..], sep, c);
    }
  }
}

=== FILE: time_math.dfy ===
/** The stateless time helpers of `lib/time.ts` (duplicated verbatim at the top
    of the vanilla `app.js`): two-digit padding, clamping, the stopwatch and
    countdown display formats, hours/minutes/seconds parsing and percentages.
    Times are integer milliseconds; percentages are reals. */
module TimeMath {
  import opened Wrappers
  import opened Text

  // ---------------------------------------------------------------------------
  // Arithmetic helpers
  // ---------------------------------------------------------------------------

  function Max(a: int, b: int): int { if a >= b then a else b }

  function MinReal(a: real, b: real): real { if a <= b then a else b }

  function MaxReal(a: real, b: real): real { if a >= b then a else b }

  /** Euclidean division and remainder are determined by the equation they satisfy. */
  lemma DivModUnique(x: int, d: int, q: int, r: int)
    requires d > 0 && x == d * q + r && 0 <= r < d
    ensures x / d == q && x % d == r
  {
    var q', r' := x / d, x % d;
    assert d * (q - q') == r' - r;
    if q - q' >= 1 {
      MulAtLeast(d, q - q');
    } else if q' - q >= 1 {
      assert d * (q' - q) == r - r';
      MulAtLeast(d, q' - q);
    }
  }

  lemma MulAtLeast(d: int, k: int)
    requires d > 0 && k >= 1
    ensures d * k >= d
  {
    assert d * k == d * (k - 1) + d;
  }

  /** `Math.floor(a / b) % m` and the like apply JavaScript's `%`, whose
      remainder takes the sign of the dividend. */
  function JsRem(a: int, b: int): (r: int)
    requires b > 0
    ensures 0 <= a ==> r == a % b
    ensures a < 0 ==> -b < r <= 0 && (a - r) % b == 0
  {
    if a >= 0 then a % b
    else
      var q := (-a) / b;
      assert -a == b * q + (-a) % b;
      assert a - (-((-a) % b)) == b * (-q);
      DivModUnique(a - (-((-a) % b)), b, -q, 0);
      -((-a) % b)
  }

  // ---------------------------------------------------------------------------
  // pad2 and clamp
  // ---------------------------------------------------------------------------

  /** `value.toString().padStart(2, '0')`. */
  function Pad2(v: int): (r: string)
    ensures |r| >= 2
    ensures 0 <= v < 10 ==> r == ['0', DigitChar(v)]
    ensures 10 <= v ==> r == NatToString(v)
    ensures 0 <= v < 100 ==> |r| == 2
    ensures 0 <= v ==> AllDigits(r)
  {
    PadStart(IntToString(v), 2, '0')
  }

  /** A padded non-negative value still reads back as the same number. */
  lemma Pad2Value(v: nat)
    ensures AllDigits(Pad2(v)) && DigitsValue(Pad2(v)) == v
  {
    var t := NatToString(v);
    if |t| < 2 {
      assert Pad2(v) == Repeat('0', 2 - |t|) + t;
      LeadingZerosValue(2 - |t|, t);
    }
  }

  /** `Math.min(max, Math.max(min, value))`; when `lo > hi` the upper bound wins. */
  function Clamp(v: real, lo: real, hi: real): (r: real)
    ensures lo <= hi ==> lo <= r <= hi
    ensures lo <= v <= hi ==> r == v
    ensures lo <= hi && v < lo ==> r == lo
    ensures lo <= hi && hi < v ==> r == hi
    ensures hi < lo ==> r == hi
  {
    MinReal(hi, MaxReal(lo, v))
  }

  // ---------------------------------------------------------------------------
  // formatStopwatch: MM:SS.fff
  // ---------------------------------------------------------------------------

  /** `(n / 10^f).toFixed(f)` for a natural `n`, following the digit algorithm
      of ECMAScript's Number.prototype.toFixed: write the digits of `n`, pad
      them with zeros to at least `f + 1` digits, and put the point before the
      last `f`. */
  function ToFixed(n: nat, f: nat): (r: string)
    requires f >= 1
    ensures |r| >= f + 2
    ensures r[|r| - f - 1] == '.'
  {
    var m := NatToString(n);
    var digits := if |m| <= f then Repeat('0', f + 1 - |m|) + m else m;
    digits[..|digits| - f] + "." + digits[|digits| - f..]
  }

  /** The sub-second part of the display: a remainder below one second as
      exactly three digits, zero-padded. */
  function Fraction3(r: nat): string
  {
    PadStart(NatToString(r), 3, '0')
  }

  /** `(r / 1000).toFixed(3).slice(2)` is the three-digit zero-padded `r`. */
  lemma ToFixedSlice(r: nat)
    requires r < 1000
    ensures ToFixed(r, 3)[2..] == Fraction3(r)
    ensures |Fraction3(r)| == 3 && AllDigits(Fraction3(r)) && DigitsValue(Fraction3(r)) == r
  {
    ToFixedFraction(r);
    Fraction3Digits(r);
    assert ("0." + Fraction3(r))[2..] == Fraction3(r);
  }

  /** Below one second, `toFixed(3)` of the thousandths is `0.` and the padded digits. */
  lemma ToFixedFraction(r: nat)
    requires r < 1000
    ensures ToFixed(r, 3) == "0." + Fraction3(r)
  {
    PointAfterPadding(NatToString(r));
  }

  /** Padding up to three digits to four places with zeros and cutting off
      the last three leaves a single `0` in front of the point. */
  lemma PointAfterPadding(m: string)
    requires 1 <= |m| <= 3
    ensures var digits := Repeat('0', 4 - |m|) + m;
            digits[..|digits| - 3] + "." + digits[|digits| - 3..] == "0." + PadStart(m, 3, '0')
  {
    var pad := PadStart(m, 3, '0');
    assert pad == Repeat('0', 3 - |m|) + m;
    assert Repeat('0', 4 - |m|) == "0" + Repeat('0', 3 - |m|);
  }

  /** The padded thousandths are three digits that read back as `r`. */
  lemma Fraction3Digits(r: nat)
    requires r < 1000
    ensures |Fraction3(r)| == 3 && AllDigits(Fraction3(r)) && DigitsValue(Fraction3(r)) == r
  {
    var m := NatToString(r);
    assert Fraction3(r) == Repeat('0', 3 - |m|) + m;
    LeadingZerosValue(3 - |m|, m);
  }

  /** `formatStopwatch(ms)`: minutes (at least two digits), seconds and the
      thousandths of the non-negative whole milliseconds. Elapsed times are
      integers, so `Math.floor` is the identity here. The display reads back
      as exactly the minutes, seconds and thousandths of the clamped time. */
  function FormatStopwatch(ms: int): (r: string)
    ensures var t := Max(0, ms);
            ReadStopwatch(r) == Some(StopwatchFields(t / 60000, (t % 60000) / 1000, t % 1000))
  {
    var totalMs := Max(0, ms);
    var minutes := totalMs / 60000;
    var seconds := (totalMs % 60000) / 1000;
    var remainderMs := totalMs % 1000;
    var fraction := ToFixed(remainderMs, 3)[2..];
    StopwatchDecompose(totalMs);
    ToFixedSlice(remainderMs);
    Pad2Value(minutes);
    Pad2Value(seconds);
    ReadStopwatchParts(Pad2(minutes), Pad2(seconds), fraction);
    Pad2(minutes) + ":" + Pad2(seconds) + "." + fraction
  }

  datatype StopwatchFields = StopwatchFields(minutes: nat, seconds: nat, millis: nat)

  /** Reads a `MM:SS.fff` display back into its three numeric fields: the
      last three characters are the thousandths, the two before the `.` the
      seconds, and everything before the `:` the minutes. */
  function ReadStopwatch(s: string): Option<StopwatchFields>
  {
    if |s| < 9 then None
    else
      var n := |s| - 7;
      ReadStopwatchFields(s[..n], s[n], [s[n + 1], s[n + 2]], s[n + 3], [s[n + 4], s[n + 5], s[n + 6]])
  }

  /** The fields of a display cut at its separator positions. */
  function ReadStopwatchFields(mm: string, colon: char, ss: string, dot: char, fff: string): Option<StopwatchFields>
  {
    if colon == ':' && dot == '.' && AllDigits(mm) && AllDigits(ss) && AllDigits(fff)
    then Some(StopwatchFields(DigitsValue(mm), DigitsValue(ss), DigitsValue(fff)))
    else None
  }

  /** Splitting a non-negative millisecond count into minutes, seconds below 60
      and milliseconds below 1000 loses nothing. */
  lemma StopwatchDecompose(t: nat)
    ensures (t % 60000) / 1000 < 60
    ensures (t % 60000) % 1000 == t % 1000
    ensures (t / 60000) * 60000 + ((t % 60000) / 1000) * 1000 + t % 1000 == t
  {
    var q, r := t / 60000, t % 60000;
    var r0, r1 := r / 1000, r % 1000;
    assert r == 1000 * r0 + r1;
    assert t == 1000 * (60 * q + r0) + r1;
    DivModUnique(t, 1000, 60 * q + r0, r1);
  }

  /** The `toFixed(3).slice(2)` thousandths of the display are the remainder
      zero-padded to three digits. */
  lemma FormatStopwatchParts(ms: int)
    ensures var t := Max(0, ms);
            FormatStopwatch(ms) == Pad2(t / 60000) + ":" + Pad2((t % 60000) / 1000) + "." + Fraction3(t % 1000)
  {
    ToFixedSlice(Max(0, ms) % 1000);
  }

  /** Cutting `a:b.c` at its separator positions gives back `a`, `b` and `c`. */
  lemma ReadStopwatchCut(a: string, b: string, c: string)
    requires |a| >= 2 && |b| == 2 && |c| == 3
    ensures ReadStopwatch(a + ":" + b + "." + c) == ReadStopwatchFields(a, ':', b, '.', c)
  {
    var s := a + ":" + b + "." + c;
    var n := |a|;
    assert s[..n] == a;
    assert [s[n + 1], s[n + 2]] == b;
    assert [s[n + 4], s[n + 5], s[n + 6]] == c;
  }

  lemma ReadStopwatchParts(a: string, b: string, c: string)
    requires |a| >= 2 && |b| == 2 && |c| == 3
    requires AllDigits(a) && AllDigits(b) && AllDigits(c)
    ensures ReadStopwatch(a + ":" + b + "." + c)
            == Some(StopwatchFields(DigitsValue(a), DigitsValue(b), DigitsValue(c)))
  {
    ReadStopwatchCut(a, b, c);
  }

  /** The time a `MM:SS.fff` display denotes, if it is one. */
  function DecodeStopwatch(s: string): Option<nat>
  {
    match ReadStopwatch(s)
    case Some(f) => Some(f.minutes * 60000 + f.seconds * 1000 + f.millis)
    case None => None
  }

  lemma DecodeTime(s: string, t: nat)
    requires ReadStopwatch(s) == Some(StopwatchFields(t / 60000, (t % 60000) / 1000, t % 1000))
    ensures DecodeStopwatch(s) == Some(t)
  {
    StopwatchDecompose(t);
  }

  /** The stopwatch display denotes exactly the non-negative elapsed time:
      its fields read back as minutes, seconds in 00..59 and thousandths, and
      recompose to `max(0, ms)`. */
  lemma FormatStopwatchRoundTrip(ms: int)
    ensures var t := Max(0, ms);
            var f := StopwatchFields(t / 60000, (t % 60000) / 1000, t % 1000);
            && ReadStopwatch(FormatStopwatch(ms)) == Some(f)
            && f.seconds < 60 && f.millis < 1000
            && f.minutes * 60000 + f.seconds * 1000 + f.millis == t
  {
    StopwatchDecompose(Max(0, ms));
  }

  /** Decoding a display gives back the clamped time it shows. */
  lemma DecodeFormatStopwatch(ms: int)
    ensures DecodeStopwatch(FormatStopwatch(ms)) == Some(Max(0, ms))
  {
    FormatStopwatchRoundTrip(ms);
    DecodeTime(FormatStopwatch(ms), Max(0, ms));
  }

  /** Two non-negative times display alike exactly when they are equal. */
  lemma FormatStopwatchInjective(a: nat, b: nat)
    ensures FormatStopwatch(a) == FormatStopwatch(b) <==> a == b
  {
    if FormatStopwatch(a) == FormatStopwatch(b) {
      DecodeFormatStopwatch(a);
      DecodeFormatStopwatch(b);
    }
  }

  /** Every negative time shows the same display as zero. */
  lemma FormatStopwatchClamps(ms: int)
    requires ms <= 0
    ensures FormatStopwatch(ms) == FormatStopwatch(0)
  {
  }

  /** Negative times show as zero. */
  lemma FormatStopwatchZero(ms: int)
    requires ms <= 0
    ensures FormatStopwatch(ms) == "00:00.000"
  {
    var t := Max(0, ms);
    assert t == 0 && t / 60000 == 0 && (t % 60000) / 1000 == 0 && t % 1000 == 0;
    FormatStopwatchParts(ms);
    assert Pad2(0) == "00";
    assert Fraction3(0) == "000";
  }

  lemma FormatStopwatchExample()
    ensures FormatStopwatch(61234) == "01:01.234"
  {
    var t := 61234;
    assert t / 60000 == 1 && (t % 60000) / 1000 == 1 && t % 1000 == 234;
    FormatStopwatchParts(t);
    StopwatchExampleText();
  }

  lemma StopwatchExampleText()
    ensures Pad2(1) + ":" + Pad2(1) + "." + Fraction3(234) == "01:01.234"
  {
    Pad2Examples();
    Fraction3Example();
  }

  lemma Pad2Examples()
    ensures Pad2(0) == "00" && Pad2(1) == "01"
  {
    assert DigitChar(0) == '0' && DigitChar(1) == '1';
  }

  lemma Fraction3Example()
    ensures Fraction3(234) == "234"
  {
    assert NatToString(2) == "2";
    assert NatToString(23) == "23";
    assert NatToString(234) == "234";
  }

  // ---------------------------------------------------------------------------
  // formatHMS: H:MM:SS or MM:SS
  // ---------------------------------------------------------------------------

  /** `formatHMS(ms)`: whole seconds, floored and clamped at zero; the hour
      field is shown (unpadded) only when there is at least one hour. */
  function FormatHMS(ms: int): (r: string)
    ensures var t := Max(0, ms / 1000);
            ReadHMS(r) == Some(ClockFields(t / 3600, (t % 3600) / 60, t % 60))
  {
    var totalSeconds := Max(0, ms / 1000);
    var hours := totalSeconds / 3600;
    var minutes := (totalSeconds % 3600) / 60;
    var seconds := totalSeconds % 60;
    HMSDecompose(totalSeconds);
    Pad2Value(minutes);
    Pad2Value(seconds);
    if hours > 0 then
      ReadHMSLong(NatToString(hours), Pad2(minutes), Pad2(seconds));
      NatToString(hours) + ":" + Pad2(minutes) + ":" + Pad2(seconds)
    else
      ReadHMSShort(Pad2(minutes), Pad2(seconds));
      Pad2(minutes) + ":" + Pad2(seconds)
  }

  datatype ClockFields = ClockFields(hours: nat, minutes: nat, seconds: nat)

  /** Reads an `MM:SS` or `H:MM:SS` display back into its fields: the last
      two characters are the seconds, the two before the last `:` the
      minutes, and what precedes the first `:` of a long display the hours. */
  function ReadHMS(s: string): Option<ClockFields>
  {
    if |s| == 5 then
      ReadClockFields("0", ':', [s[0], s[1]], s[2], [s[3], s[4]])
    else if |s| >= 7 then
      var n := |s| - 6;
      ReadClockFields(s[..n], s[n], [s[n + 1], s[n + 2]], s[n + 3], [s[n + 4], s[n + 5]])
    else None
  }

  /** The fields of a display cut at its separator positions. */
  function ReadClockFields(hh: string, colon1: char, mm: string, colon2: char, ss: string): Option<ClockFields>
  {
    if colon1 == ':' && colon2 == ':' && AllDigits(hh) && AllDigits(mm) && AllDigits(ss)
    then Some(ClockFields(DigitsValue(hh), DigitsValue(mm), DigitsValue(ss)))
    else None
  }

  lemma HMSDecompose(t: nat)
    ensures (t % 3600) / 60 < 60 && t % 60 < 60
    ensures (t % 3600) % 60 == t % 60
    ensures (t / 3600) * 3600 + ((t % 3600) / 60) * 60 + t % 60 == t
  {
    var q, r := t / 3600, t % 3600;
    var r0, r1 := r / 60, r % 60;
    assert r == 60 * r0 + r1;
    assert t == 60 * (60 * q + r0) + r1;
    DivModUnique(t, 60, 60 * q + r0, r1);
  }

  lemma ReadHMSShortCut(b: string, c: string)
    requires |b| == 2 && |c| == 2
    ensures ReadHMS(b + ":" + c) == ReadClockFields("0", ':', b, ':', c)
  {
    var s := b + ":" + c;
    assert [s[0], s[1]] == b && [s[3], s[4]] == c;
  }

  lemma ReadHMSShort(b: string, c: string)
    requires |b| == 2 && |c| == 2 && AllDigits(b) && AllDigits(c)
    ensures ReadHMS(b + ":" + c) == Some(ClockFields(0, DigitsValue(b), DigitsValue(c)))
  {
    ReadHMSShortCut(b, c);
    assert DigitsValue("0") == 0;
  }

  lemma ReadHMSLongCut(a: string, b: string, c: string)
    requires |a| >= 1 && |b| == 2 && |c| == 2
    ensures ReadHMS(a + ":" + b + ":" + c) == ReadClockFields(a, ':', b, ':', c)
  {
    var s := a + ":" + b + ":" + c;
    var n := |a|;
    assert s[..n] == a;
    assert [s[n + 1], s[n + 2]] == b;
    assert [s[n + 4], s[n + 5]] == c;
  }

  lemma ReadHMSLong(a: string, b: string, c: string)
    requires |a| >= 1 && |b| == 2 && |c| == 2 && AllDigits(a) && AllDigits(b) && AllDigits(c)
    ensures ReadHMS(a + ":" + b + ":" + c) == Some(ClockFields(DigitsValue(a), DigitsValue(b), DigitsValue(c)))
  {
    ReadHMSLongCut(a, b, c);
  }

  /** The countdown display denotes exactly the whole seconds `max(0, floor(ms/1000))`:
      its fields read back as hours, minutes and seconds below 60, and recompose. */
  lemma FormatHMSRoundTrip(ms: int)
    ensures var t := Max(0, ms / 1000);
            var f := ClockFields(t / 3600, (t % 3600) / 60, t % 60);
            && ReadHMS(FormatHMS(ms)) == Some(f)
            && f.minutes < 60 && f.seconds < 60
            && f.hours * 3600 + f.minutes * 60 + f.seconds == t
  {
    HMSDecompose(Max(0, ms / 1000));
  }

  /** `formatHMS` depends on its input only through the whole second it falls
      in, and tells different whole seconds apart. */
  lemma FormatHMSWholeSeconds(a: int, b: int)
    ensures FormatHMS(a) == FormatHMS(b) <==> Max(0, a / 1000) == Max(0, b / 1000)
  {
    FormatHMSRoundTrip(a);
    FormatHMSRoundTrip(b);
  }

  /** The hour field appears exactly from one hour on: below it the display
      is the five characters `MM:SS`, from it on at least `H:MM:SS`. */
  lemma FormatHMSShape(ms: int)
    ensures Max(0, ms / 1000) < 3600 <==> |FormatHMS(ms)| == 5
    ensures Max(0, ms / 1000) >= 3600 ==> |FormatHMS(ms)| >= 7
  {
    var t := Max(0, ms / 1000);
    HMSDecompose(t);
  }

  lemma FormatHMSExamples()
    ensures FormatHMS(0) == "00:00"
    ensures FormatHMS(3661000) == "1:01:01"
  {
    FormatHMSZeroExample();
    FormatHMSHourExample();
  }

  lemma FormatHMSZeroExample()
    ensures FormatHMS(0) == "00:00"
  {
    var t := Max(0, 0 / 1000);
    assert t == 0 && t / 3600 == 0 && (t % 3600) / 60 == 0 && t % 60 == 0;
    assert Pad2(0) == "00";
  }

  lemma FormatHMSHourExample()
    ensures FormatHMS(3661000) == "1:01:01"
  {
    var t := Max(0, 3661000 / 1000);
    assert t == 3661 && t / 3600 == 1 && (t % 3600) / 60 == 1 && t % 60 == 1;
    assert Pad2(1) == "01";
    assert NatToString(1) == "1";
  }

  // ---------------------------------------------------------------------------
  // parseToMs and percent
  // ---------------------------------------------------------------------------

  /** A JavaScript number as the time inputs deliver it: an integer, or one of
      NaN / ±Infinity (`Number("")` of a cleared field is 0, of junk is NaN). */
  datatype JsNumber = Finite(v: int) | NonFinite

  /** `Number.isFinite(x) ? x : 0`. */
  function OrZero(x: JsNumber): int
  {
    if x.Finite? then x.v else 0
  }

  /** `parseToMs(hours, minutes, seconds)`. */
  function ParseToMs(hours: JsNumber, minutes: JsNumber, seconds: JsNumber): (r: nat)
    ensures var sum := OrZero(hours) * 3600000 + OrZero(minutes) * 60000 + OrZero(seconds) * 1000;
            (sum >= 0 ==> r == sum) && (sum < 0 ==> r == 0)
  {
    var h := OrZero(hours);
    var m := OrZero(minutes);
    var s := OrZero(seconds);
    Max(0, h * 3600000 + m * 60000 + s * 1000)
  }

  lemma ParseToMsExample()
    ensures ParseToMs(NonFinite, Finite(5), Finite(10)) == 310000
  {
  }

  /** Splitting a non-negative duration into hours, minutes below 60 and
      seconds below 60 and parsing those back gives the duration rounded down
      to the whole second. */
  lemma ParseToMsRecomposes(ms: nat)
    ensures ParseToMs(Finite(ms / 3600000), Finite((ms / 60000) % 60), Finite((ms / 1000) % 60))
            == ms - ms % 1000
  {
    var t := ms / 1000;
    var h, m, s := ms / 3600000, (ms / 60000) % 60, (ms / 1000) % 60;
    assert ms == 1000 * t + ms % 1000;
    var tm := t / 60;
    assert t == 60 * tm + t % 60;
    assert ms == 60000 * tm + (1000 * (t % 60) + ms % 1000);
    DivModUnique(ms, 60000, tm, 1000 * (t % 60) + ms % 1000);
    var th := tm / 60;
    assert tm == 60 * th + tm % 60;
    assert ms == 3600000 * th + (60000 * (tm % 60) + 1000 * (t % 60) + ms % 1000);
    DivModUnique(ms, 3600000, th, 60000 * (tm % 60) + 1000 * (t % 60) + ms % 1000);
  }

  /** `percent(progress, total)`: 0 for a non-positive total, otherwise the
      ratio as a percentage clamped to 0..100. */
  function Percent(progress: real, total: real): (r: real)
    ensures 0.0 <= r <= 100.0
    ensures total <= 0.0 ==> r == 0.0
    ensures 0.0 < total && progress >= total ==> r == 100.0
    ensures 0.0 < total && progress <= 0.0 ==> r == 0.0
    ensures 0.0 < total && 0.0 <= progress <= total ==> r * total == progress * 100.0
  {
    if total <= 0.0 then 0.0 else Clamp((progress / total) * 100.0, 0.0, 100.0)
  }

  /** More progress towards the same total never shows a smaller percentage. */
  lemma PercentMonotone(p1: real, p2: real, total: real)
    requires p1 <= p2
    ensures Percent(p1, total) <= Percent(p2, total)
  {
    if total > 0.0 {
      RealDivMonotone(p1, p2, total);
    }
  }

  /** Dividing by a positive number keeps the order. */
  lemma RealDivMonotone(a: real, b: real, d: real)
    requires d > 0.0 && a <= b
    ensures a / d <= b / d
  {
  }

  lemma PercentExamples()
    ensures Percent(50.0, 100.0) == 50.0
    ensures forall p :: Percent(p, 0.0) == 0.0
  {
  }
}

=== FILE: vanilla.dfy ===
/** The event loop of the vanilla build (`app.js`): the subscriber set,
    `setState` (replace, save, notify), the `actions` object dispatched
    through it, and the animation-frame `tick` that steps every running
    counter at most once per 1000/60 ms of frame time. Subscribers are
    opaque values compared by identity, as functions are in a JavaScript
    `Set`. */
module Vanilla {
  import opened Wrappers
  import opened Entities
  import opened Collections
  import Store
  import StoreLaws
  import Stepper
  import Persistence

  // ---------------------------------------------------------------------------
  // Subscribers
  // ---------------------------------------------------------------------------

  /** No subscriber is registered twice (the subscribers form a `Set`). */
  predicate NoDuplicates<F(==)>(subs: seq<F>)
  {
    forall i, j :: 0 <= i < j < |subs| ==> subs[i] != subs[j]
  }

  /** `subscribers.add(fn)`: a new subscriber goes last; a known one stays put. */
  function Subscribe<F(==)>(subs: seq<F>, fn: F): (subs': seq<F>)
    ensures fn in subs'
    ensures fn in subs ==> subs' == subs
    ensures fn !in subs ==> subs' == subs + [fn]
    ensures NoDuplicates(subs) ==> NoDuplicates(subs')
  {
    if fn in subs then subs else subs + [fn]
  }

  /** `subscribers.delete(fn)`, what the handle returned by `subscribe` does. */
  function Unsubscribe<F(==)>(subs: seq<F>, fn: F): (subs': seq<F>)
    ensures fn !in subs'
    ensures |subs'| <= |subs|
    ensures forall i :: 0 <= i < |subs'| ==> subs'[i] in subs
    ensures forall i :: 0 <= i < |subs| && subs[i] != fn ==> subs[i] in subs'
    decreases |subs|
  {
    if |subs| == 0 then []
    else if subs[0] == fn then Unsubscribe(subs[1..], fn)
    else [subs[0]] + Unsubscribe(subs[1..], fn)
  }

  /** Subscribing the same function twice registers it once. */
  lemma SubscribeTwice<F>(subs: seq<F>, fn: F)
    ensures Subscribe(Subscribe(subs, fn), fn) == Subscribe(subs, fn)
  {
  }

  lemma {:induction false} UnsubscribeAbsent<F>(subs: seq<F>, fn: F)
    requires fn !in subs
    ensures Unsubscribe(subs, fn) == subs
    decreases |subs|
  {
    if |subs| > 0 {
      UnsubscribeAbsent(subs[1..], fn);
      assert [subs[0]] + subs[1..] == subs;
    }
  }

  /** The handle `subscribe` returns undoes the subscription of a new subscriber. */
  lemma {:induction false} UnsubscribeUndoesSubscribe<F>(subs: seq<F>, fn: F)
    requires fn !in subs
    ensures Unsubscribe(Subscribe(subs, fn), fn) == subs
    decreases |subs|
  {
    var subs' := subs + [fn];
    if |subs| == 0 {
      assert subs'[1..] == [];
    } else {
      assert subs'[1..] == subs[1..] + [fn];
      UnsubscribeUndoesSubscribe(subs[1..], fn);
      assert [subs[0]] + subs[1..] == subs;
    }
  }

  /** Deleting works element by element: the subscribers before and after
      keep their order. */
  lemma {:induction false} UnsubscribeConcat<F>(a: seq<F>, b: seq<F>, fn: F)
    ensures Unsubscribe(a + b, fn) == Unsubscribe(a, fn) + Unsubscribe(b, fn)
    decreases |a|
  {
    if |a| == 0 {
      assert a + b == b;
    } else {
      assert (a + b)[0] == a[0] && (a + b)[1..] == a[1..] + b;
      UnsubscribeConcat(a[1..], b, fn);
    }
  }

  /** Deleting a subscriber registered once, between `before` and `after`,
      leaves `before + after`. */
  lemma {:induction false} UnsubscribeMiddle<F>(before: seq<F>, fn: F, after: seq<F>)
    requires fn !in before && fn !in after
    ensures Unsubscribe(before + [fn] + after, fn) == before + after
    decreases |before|
  {
    if |before| == 0 {
      MiddleShape(before, fn, after);
      UnsubscribeAbsent(after, fn);
    } else {
      MiddleShape(before, fn, after);
      UnsubscribeMiddle(before[1..], fn, after);
    }
  }

  /** How `before + [fn] + after` splits into its head and tail. */
  lemma MiddleShape<F>(before: seq<F>, fn: F, after: seq<F>)
    ensures var subs := before + [fn] + after;
            && |subs| > 0
            && (|before| == 0 ==> subs[0] == fn && subs[1..] == after)
            && (|before| > 0 ==> subs[0] == before[0] && subs[1..] == before[1..] + [fn] + after
                                 && before + after == [before[0]] + (before[1..] + after))
  {
    var subs := before + [fn] + after;
    if |before| > 0 {
      assert subs[1..] == before[1..] + [fn] + after;
      assert before + after == [before[0]] + (before[1..] + after);
    }
  }

  /** In a subscriber set, deleting the subscriber at position `k` cuts out
      exactly that one and keeps the others in their order, so later
      notifications still run in insertion order. */
  lemma UnsubscribeAt<F>(subs: seq<F>, k: nat)
    requires NoDuplicates(subs) && k < |subs|
    ensures Unsubscribe(subs, subs[k]) == subs[..k] + subs[k + 1..]
  {
    OnlyAt(subs, k);
    SplitAt(subs, k);
    UnsubscribeMiddle(subs[..k], subs[k], subs[k + 1..]);
  }

  /** In a duplicate-free sequence the element at `k` occurs nowhere else. */
  lemma OnlyAt<F>(subs: seq<F>, k: nat)
    requires NoDuplicates(subs) && k < |subs|
    ensures subs[k] !in subs[..k] && subs[k] !in subs[k + 1..]
  {
    var before, after := subs[..k], subs[k + 1..];
    forall j | 0 <= j < |before| ensures before[j] != subs[k] {
      assert before[j] == subs[j];
    }
    forall j | 0 <= j < |after| ensures after[j] != subs[k] {
      assert after[j] == subs[k + 1 + j];
    }
  }

  // ---------------------------------------------------------------------------
  // setState
  // ---------------------------------------------------------------------------

  /** The engine's side of the page: the live state, the subscribers in the
      order they were added, and `lastPerf` of the tick loop. */
  datatype App<F> = App(state: State, subscribers: seq<F>, lastPerf: real)

  /** An observable effect: a snapshot written to storage, or a subscriber
      called with a state. */
  datatype Effect<F> = Saved(snapshot: Persistence.Stored) | Notified(subscriber: F, state: State)

  datatype Outcome<F> = Outcome(app: App<F>, effects: seq<Effect<F>>)

  /** `subscribers.forEach((fn) => fn(state))`, in insertion order. */
  function Notifications<F>(subs: seq<F>, s: State): (effects: seq<Effect<F>>)
    ensures |effects| == |subs|
    ensures forall i :: 0 <= i < |subs| ==> effects[i] == Notified(subs[i], s)
  {
    seq(|subs|, i requires 0 <= i < |subs| => Notified(subs[i], s))
  }

  /** `setState`: the mutated copy becomes the state first; it is then saved,
      and then every subscriber is called with it. */
  function SetState<F>(app: App<F>, next: State): (o: Outcome<F>)
    ensures o.app == app.(state := next)
    ensures |o.effects| == |app.subscribers| + 1
    ensures o.effects[0] == Saved(Persistence.SaveState(next))
    ensures forall i :: 0 <= i < |app.subscribers| ==> o.effects[i + 1] == Notified(app.subscribers[i], next)
  {
    Outcome(app.(state := next), [Saved(Persistence.SaveState(next))] + Notifications(app.subscribers, next))
  }

  /** What is saved is what every subscriber sees: loading the saved snapshot
      gives back exactly the state the subscribers were called with, which is
      the new state. */
  lemma SetStateConsistent<F>(app: App<F>, next: State)
    ensures var o := SetState(app, next);
            && o.effects[0].Saved?
            && Persistence.LoadState(o.effects[0].snapshot) == o.app.state
            && forall i :: 1 <= i < |o.effects| ==> o.effects[i].Notified? && o.effects[i].state == o.app.state
  {
    Persistence.SaveLoadRoundTrip(next);
    var o := SetState(app, next);
    forall i | 1 <= i < |o.effects|
      ensures o.effects[i].Notified? && o.effects[i].state == o.app.state
    {
      assert o.effects[(i - 1) + 1] == Notified(app.subscribers[i - 1], next);
    }
  }

  // ---------------------------------------------------------------------------
  // Actions
  // ---------------------------------------------------------------------------

  /** One call on the `actions` object, with the id `nanoid()` would have
      produced where the action creates something. */
  datatype Action =
    | SetTheme(theme: Theme)
    | AddStopwatch(given: Option<string>, freshId: string)
    | RemoveStopwatch(id: string)
    | StartStopwatch(id: string)
    | StopStopwatch(id: string)
    | ResetStopwatch(id: string)
    | LapStopwatch(id: string, lapId: string)
    | RenameStopwatch(id: string, newName: string)
    | AddTimer(presetMs: int, given: Option<string>, freshId: string)
    | RemoveTimer(id: string)
    | StartTimer(id: string)
    | StopTimer(id: string)
    | ResetTimer(id: string)
    | SetTimerRemaining(id: string, ms: int)
    | RenameTimer(id: string, newName: string)
    | SetTimerSound(id: string, sound: Sound)
    | AddCounter(config: Store.CounterConfig, freshId: string)
    | RemoveCounter(id: string)
    | StartCounter(id: string)
    | StopCounter(id: string)
    | ResetCounter(id: string)
    | SetCounterConfig(id: string, patch: Store.CounterPatch)
    | RenameCounter(id: string, newName: string)

  predicate MembershipAction(a: Action)
  {
    a.AddStopwatch? || a.AddTimer? || a.AddCounter? || a.RemoveStopwatch? || a.RemoveTimer? || a.RemoveCounter?
  }

  predicate StopwatchAction(a: Action)
  {
    a.StartStopwatch? || a.StopStopwatch? || a.ResetStopwatch? || a.LapStopwatch? || a.RenameStopwatch?
  }

  predicate TimerAction(a: Action)
  {
    a.StartTimer? || a.StopTimer? || a.ResetTimer? || a.SetTimerRemaining? || a.RenameTimer? || a.SetTimerSound?
  }

  predicate CounterAction(a: Action)
  {
    a.StartCounter? || a.StopCounter? || a.ResetCounter? || a.SetCounterConfig? || a.RenameCounter?
  }

  /** The mutator each action hands to `setState`; the vanilla actions are
      the store transitions of `store.ts`, reading the clock once. Each action
      touches only its own collection, and only `setTheme` the theme. */
  function Apply(s: State, a: Action, now: int): (r: State)
    ensures a.SetTheme? ==> r == s.(theme := a.theme)
    ensures !a.SetTheme? ==> r.theme == s.theme
    ensures !(StopwatchAction(a) || a.AddStopwatch? || a.RemoveStopwatch?) ==> r.stopwatches == s.stopwatches
    ensures !(TimerAction(a) || a.AddTimer? || a.RemoveTimer?) ==> r.timers == s.timers
    ensures !(CounterAction(a) || a.AddCounter? || a.RemoveCounter?) ==> r.counters == s.counters
  {
    if MembershipAction(a) then ApplyMembership(s, a)
    else if StopwatchAction(a) then ApplyStopwatch(s, a, now)
    else if TimerAction(a) then ApplyTimer(s, a, now)
    else if CounterAction(a) then ApplyCounter(s, a, now)
    else Store.SetTheme(s, a.theme)
  }

  /** The actions that add or remove a card; any other action is not one of them. */
  function ApplyMembership(s: State, a: Action): State
  {
    match a
    case AddStopwatch(given, freshId) => Store.AddStopwatch(s, given, freshId)
    case RemoveStopwatch(id) => Store.RemoveStopwatch(s, id)
    case AddTimer(presetMs, given, freshId) => Store.AddTimer(s, presetMs, given, freshId)
    case RemoveTimer(id) => Store.RemoveTimer(s, id)
    case AddCounter(config, freshId) => Store.AddCounter(s, config, freshId)
    case RemoveCounter(id) => Store.RemoveCounter(s, id)
    case _ => s
  }

  /** The actions on one stopwatch. */
  function ApplyStopwatch(s: State, a: Action, now: int): State
  {
    match a
    case StartStopwatch(id) => Store.StartStopwatch(s, id, now)
    case StopStopwatch(id) => Store.StopStopwatch(s, id, now)
    case ResetStopwatch(id) => Store.ResetStopwatch(s, id)
    case LapStopwatch(id, lapId) => Store.LapStopwatch(s, id, now, lapId)
    case RenameStopwatch(id, newName) => Store.RenameStopwatch(s, id, newName)
    case _ => s
  }

  /** The actions on one timer. */
  function ApplyTimer(s: State, a: Action, now: int): State
  {
    match a
    case StartTimer(id) => Store.StartTimer(s, id, now)
    case StopTimer(id) => Store.StopTimer(s, id, now)
    case ResetTimer(id) => Store.ResetTimer(s, id)
    case SetTimerRemaining(id, ms) => Store.SetTimerRemaining(s, id, ms)
    case RenameTimer(id, newName) => Store.RenameTimer(s, id, newName)
    case SetTimerSound(id, sound) => Store.SetTimerSound(s, id, sound)
    case _ => s
  }

  /** The actions on one counter. */
  function ApplyCounter(s: State, a: Action, now: int): State
  {
    match a
    case StartCounter(id) => Store.StartCounter(s, id, now)
    case StopCounter(id) => Store.StopCounter(s, id)
    case ResetCounter(id) => Store.ResetCounter(s, id)
    case SetCounterConfig(id, patch) => Store.SetCounterConfig(s, id, patch)
    case RenameCounter(id, newName) => Store.RenameCounter(s, id, newName)
    case _ => s
  }

  /** `actions.x(...)`: the action's transition, through `setState`. */
  function Dispatch<F>(app: App<F>, a: Action, now: int): (o: Outcome<F>)
    ensures o.app.subscribers == app.subscribers && o.app.lastPerf == app.lastPerf
    ensures o.app.state == Apply(app.state, a, now)
    ensures |o.effects| == |app.subscribers| + 1
    ensures o.effects[0] == Saved(Persistence.SaveState(o.app.state))
  {
    SetState(app, Apply(app.state, a, now))
  }

  /** The action introduces no duplicate id: additions use an id not yet in
      their collection, and a configuration change does not set another id. */
  predicate Fresh(s: State, a: Action)
  {
    match a
    case AddStopwatch(_, freshId) => freshId !in Ids(s.stopwatches, StopwatchKey)
    case AddTimer(_, _, freshId) => freshId !in Ids(s.timers, TimerKey)
    case AddCounter(_, freshId) => freshId !in Ids(s.counters, CounterKey)
    case SetCounterConfig(id, patch) => patch.id.None? || patch.id == Some(id)
    case _ => true
  }

  /** Every action keeps ids unique within each collection, given fresh ids. */
  lemma ApplyKeepsWellFormed(s: State, a: Action, now: int)
    requires Store.WellFormed(s) && Fresh(s, a)
    ensures Store.WellFormed(Apply(s, a, now))
  {
    if MembershipAction(a) {
      MembershipKeepsWellFormed(s, a);
    } else if StopwatchAction(a) {
      StopwatchActionKeepsWellFormed(s, a, now);
    } else if TimerAction(a) {
      TimerActionKeepsWellFormed(s, a, now);
    } else if CounterAction(a) {
      CounterActionKeepsWellFormed(s, a, now);
    }
  }

  lemma MembershipKeepsWellFormed(s: State, a: Action)
    requires Store.WellFormed(s) && Fresh(s, a) && MembershipAction(a)
    ensures Store.WellFormed(ApplyMembership(s, a))
  {
    var noConfig := Store.CounterConfig(None, None, None, None, None, None, None);
    if a.AddStopwatch? {
      StoreLaws.AddRemoveKeepWellFormed(s, a.given, 0, noConfig, a.freshId, "");
    } else if a.AddTimer? {
      StoreLaws.AddRemoveKeepWellFormed(s, a.given, a.presetMs, noConfig, a.freshId, "");
    } else if a.AddCounter? {
      StoreLaws.AddRemoveKeepWellFormed(s, None, 0, a.config, a.freshId, "");
    } else {
      StoreLaws.AddRemoveKeepWellFormed(s, None, 0, noConfig, "", a.id);
    }
  }

  lemma StopwatchActionKeepsWellFormed(s: State, a: Action, now: int)
    requires Store.WellFormed(s) && StopwatchAction(a)
    ensures Store.WellFormed(ApplyStopwatch(s, a, now))
  {
    var s' := ApplyStopwatch(s, a, now);
    StoreLaws.StopwatchUpdatesKeepIds(s, a.id, now, if a.LapStopwatch? then a.lapId else "",
                                      if a.RenameStopwatch? then a.newName else "");
    StoreLaws.SameIdsWellFormed(s, s');
  }

  lemma TimerActionKeepsWellFormed(s: State, a: Action, now: int)
    requires Store.WellFormed(s) && TimerAction(a)
    ensures Store.WellFormed(ApplyTimer(s, a, now))
  {
    var s' := ApplyTimer(s, a, now);
    StoreLaws.TimerUpdatesKeepIds(s, a.id, now, if a.SetTimerRemaining? then a.ms else 0,
                                  if a.RenameTimer? then a.newName else "",
                                  if a.SetTimerSound? then a.sound else Silent);
    StoreLaws.SameIdsWellFormed(s, s');
  }

  lemma CounterActionKeepsWellFormed(s: State, a: Action, now: int)
    requires Store.WellFormed(s) && Fresh(s, a) && CounterAction(a)
    ensures Store.WellFormed(ApplyCounter(s, a, now))
  {
    var s' := ApplyCounter(s, a, now);
    StoreLaws.CounterUpdatesKeepIds(s, a.id, now, if a.SetCounterConfig? then a.patch else Store.NoChange,
                                    if a.RenameCounter? then a.newName else "");
    StoreLaws.SameIdsWellFormed(s, s');
  }

  // ---------------------------------------------------------------------------
  // The tick loop
  // ---------------------------------------------------------------------------

  /** `1000 / 60`: the least frame-time gap between two tick bodies. */
  const TickInterval: real := 1000.0 / 60.0

  /** The tick body runs only when a full interval of frame time has passed. */
  predicate TickFires(lastPerf: real, nowPerf: real)
  {
    nowPerf - lastPerf >= TickInterval
  }

  /** The frame times at which the tick body runs, starting from `lastPerf`. */
  function Firings(lastPerf: real, frames: seq<real>): (f: seq<real>)
    ensures |f| <= |frames|
    ensures forall i :: 0 <= i < |f| ==> f[i] in frames
    decreases |frames|
  {
    if |frames| == 0 then []
    else if TickFires(lastPerf, frames[0]) then [frames[0]] + Firings(frames[0], frames[1..])
    else Firings(lastPerf, frames[1..])
  }

  /** Two tick bodies are always at least 1000/60 ms of frame time apart,
      and the first one at least that far after the starting `lastPerf`. */
  lemma {:induction false} FiringsSpaced(lastPerf: real, frames: seq<real>)
    ensures var f := Firings(lastPerf, frames);
            && (|f| > 0 ==> f[0] - lastPerf >= TickInterval)
            && forall i :: 0 <= i < |f| - 1 ==> f[i + 1] - f[i] >= TickInterval
    decreases |frames|
  {
    if |frames| > 0 {
      FiringsSpaced(if TickFires(lastPerf, frames[0]) then frames[0] else lastPerf, frames[1..]);
    }
  }

  /** Every counter of a collection may be stepped. */
  predicate AllCanStep(cs: seq<Counter>)
  {
    forall i :: 0 <= i < |cs| ==> Stepper.CanStep(cs[i])
  }

  /** The counter stepping of one tick body: for each counter of the
      collection as it was when the tick began, in order, the configuration
      change its step asks for, dispatched through `setState`. */
  function StepEach<F>(app: App<F>, items: seq<Counter>, now: int): (o: Outcome<F>)
    requires AllCanStep(items)
    ensures o.app.subscribers == app.subscribers && o.app.lastPerf == app.lastPerf
    decreases |items|
  {
    if |items| == 0 then Outcome(app, [])
    else
      var rest := items[1..];
      assert AllCanStep(rest) by {
        forall i | 0 <= i < |rest| ensures Stepper.CanStep(rest[i]) {
          assert rest[i] == items[i + 1];
        }
      }
      match Stepper.StepPatch(items[0], now)
      case None => StepEach(app, rest, now)
      case Some(p) =>
        var first := Dispatch(app, SetCounterConfig(items[0].id, p), now);
        var more := StepEach(first.app, rest, now);
        Outcome(more.app, first.effects + more.effects)
  }

  /** `tick(nowPerf)` with the wall clock at `now`: nothing below the
      interval; otherwise record the frame time, step the counters and
      notify every subscriber once more. */
  function Tick<F>(app: App<F>, nowPerf: real, now: int): (o: Outcome<F>)
    requires AllCanStep(app.state.counters)
    ensures !TickFires(app.lastPerf, nowPerf) ==> o == Outcome(app, [])
    ensures TickFires(app.lastPerf, nowPerf) ==> o.app.lastPerf == nowPerf
    ensures o.app.subscribers == app.subscribers
  {
    if !TickFires(app.lastPerf, nowPerf) then Outcome(app, [])
    else
      var stepped := StepEach(app.(lastPerf := nowPerf), app.state.counters, now);
      Outcome(stepped.app, stepped.effects + Notifications(stepped.app.subscribers, stepped.app.state))
  }

  /** The counters after the first `k` of `cs` have been stepped. */
  function SteppedPrefix(cs: seq<Counter>, k: nat, now: int): (r: seq<Counter>)
    requires AllCanStep(cs)
    ensures |r| == |cs|
    ensures forall i :: 0 <= i < |cs| ==> r[i] == if i < k then Stepper.StepCounter(cs[i], now) else cs[i]
  {
    seq(|cs|, i requires 0 <= i < |cs| => if i < k then Stepper.StepCounter(cs[i], now) else cs[i])
  }

  /** One more counter of the tick: its configuration change touches that
      counter alone, because ids are unique. */
  lemma StepOneMore(s: State, cs: seq<Counter>, k: nat, now: int)
    requires AllCanStep(cs) && Unique(Ids(cs, CounterKey)) && k < |cs|
    requires s.counters == SteppedPrefix(cs, k, now)
    ensures var p := Stepper.StepPatch(cs[k], now);
            p.Some? ==> Store.SetCounterConfig(s, cs[k].id, p.value) == s.(counters := SteppedPrefix(cs, k + 1, now))
    ensures Stepper.StepPatch(cs[k], now).None? ==> s.counters == SteppedPrefix(cs, k + 1, now)
  {
    var mid := SteppedPrefix(cs, k, now);
    var next := SteppedPrefix(cs, k + 1, now);
    var p := Stepper.StepPatch(cs[k], now);
    if p.Some? {
      var s' := Store.SetCounterConfig(s, cs[k].id, p.value);
      forall i | 0 <= i < |cs|
        ensures s'.counters[i] == next[i]
      {
        if i != k {
          assert Ids(cs, CounterKey)[i] != Ids(cs, CounterKey)[k];
          assert mid[i].id == cs[i].id;
        }
      }
    } else {
      forall i | 0 <= i < |cs|
        ensures mid[i] == next[i]
      {
      }
    }
  }

  lemma {:induction false} StepEachFrom<F>(app: App<F>, cs: seq<Counter>, k: nat, now: int)
    requires AllCanStep(cs) && Unique(Ids(cs, CounterKey)) && k <= |cs|
    requires app.state.counters == SteppedPrefix(cs, k, now)
    ensures AllCanStep(cs[k..])
    ensures StepEach(app, cs[k..], now).app.state == app.state.(counters := SteppedPrefix(cs, |cs|, now))
    decreases |cs| - k
  {
    assert AllCanStep(cs[k..]) by {
      forall i | 0 <= i < |cs| - k ensures Stepper.CanStep(cs[k..][i]) {
        assert cs[k..][i] == cs[k + i];
      }
    }
    if k == |cs| {
      assert SteppedPrefix(cs, k, now) == SteppedPrefix(cs, |cs|, now);
    } else {
      var items := cs[k..];
      assert items[0] == cs[k] && items[1..] == cs[k + 1..];
      StepOneMore(app.state, cs, k, now);
      match Stepper.StepPatch(cs[k], now)
      case None =>
        StepEachFrom(app, cs, k + 1, now);
      case Some(p) =>
        var a := SetCounterConfig(cs[k].id, p);
        assert Apply(app.state, a, now) == ApplyCounter(app.state, a, now);
        var first := Dispatch(app, a, now);
        StepEachFrom(first.app, cs, k + 1, now);
    }
  }

  /** With unique counter ids, the tick leaves every counter exactly as its
      own catch-up step at `now` would, and nothing else in the state
      changes: the vanilla loop follows the same rules as the component. */
  lemma TickStepsEveryCounter<F>(app: App<F>, nowPerf: real, now: int)
    requires Store.WellFormed(app.state) && AllCanStep(app.state.counters)
    requires TickFires(app.lastPerf, nowPerf)
    ensures var s' := Tick(app, nowPerf, now).app.state;
            && s'.theme == app.state.theme
            && s'.stopwatches == app.state.stopwatches
            && s'.timers == app.state.timers
            && |s'.counters| == |app.state.counters|
            && forall i :: 0 <= i < |app.state.counters| ==>
                 s'.counters[i] == Stepper.StepCounter(app.state.counters[i], now)
  {
    var cs := app.state.counters;
    assert SteppedPrefix(cs, 0, now) == cs;
    assert cs[0..] == cs;
    StepEachFrom(app.(lastPerf := nowPerf), cs, 0, now);
  }
}

=== FILE: views.dfy ===
/** What the cards derive from the store at render time (`Timer.tsx`,
    `Stopwatch.tsx` and their vanilla twins): the remaining time of a timer,
    whether it is done and its progress, the finish-and-stop decision, the
    new remainder typed into the hh/mm/ss inputs, and the elapsed time of a
    stopwatch. */
module Views {
  import opened Wrappers
  import opened TimeMath
  import opened Entities
  import opened Store

  // ---------------------------------------------------------------------------
  // Timer card
  // ---------------------------------------------------------------------------

  datatype TimerView = TimerView(remain: int, done: bool, pct: real)

  /** `remain`, `done` and `pct` of a timer card at `now`. */
  function ViewTimer(t: Timer, now: int): (v: TimerView)
    ensures v.remain == RemainingAt(t, now)
    ensures v.done <==> v.remain <= 0
    ensures 0.0 <= v.pct <= 100.0
    ensures t.remainingMs >= 0 ==> v.remain >= 0
    ensures t.totalMs > 0 && 0 <= v.remain <= t.totalMs ==> v.pct * t.totalMs as real == (t.totalMs - v.remain) as real * 100.0
    ensures t.totalMs > 0 && v.remain <= 0 ==> v.pct == 100.0
  {
    var remain := RemainingAt(t, now);
    TimerView(remain, remain <= 0, Percent((t.totalMs - remain) as real, t.totalMs as real))
  }

  /** The outcome of the finish check on a timer card: the store after it,
      and the sound it asks for, if any. */
  datatype Finish = Finish(state: State, sound: Option<Sound>)

  /** When the timer at position `i` is running and done, stop it and request
      its sound unless it is silent; otherwise do nothing. */
  function FinishTimer(s: State, i: nat, now: int): (f: Finish)
    requires i < |s.timers|
    ensures var t := s.timers[i];
            && (!(t.startedAt.Some? && ViewTimer(t, now).done) ==> f == Finish(s, None))
            && (t.startedAt.Some? && ViewTimer(t, now).done ==>
                  f.state == StopTimer(s, t.id, now) && (f.sound.Some? <==> t.sound != Silent))
            && (f.sound.Some? ==> f.sound.value == t.sound)
  {
    var t := s.timers[i];
    if t.startedAt.Some? && ViewTimer(t, now).done then
      Finish(StopTimer(s, t.id, now), if t.sound != Silent then Some(t.sound) else None)
    else
      Finish(s, None)
  }

  /** A timer that finishes is left paused at zero, and its sound is
      requested exactly when it is not silent; nothing else changes. */
  lemma FinishStopsAtZero(s: State, i: nat, now: int)
    requires i < |s.timers|
    requires s.timers[i].startedAt.Some? && ViewTimer(s.timers[i], now).done
    ensures var f := FinishTimer(s, i, now);
            && f.state.timers[i] == s.timers[i].(startedAt := None, remainingMs := 0)
            && RemainingAt(f.state.timers[i], now) == 0
            && (f.sound.Some? <==> s.timers[i].sound != Silent)
            && OnlyTimersChange(s, f.state)
  {
  }

  /** A running timer with time left is not stopped. */
  lemma FinishLeavesRunningTimer(s: State, i: nat, now: int)
    requires i < |s.timers|
    requires s.timers[i].startedAt.Some? && s.timers[i].remainingMs - (now - s.timers[i].startedAt.value) > 0
    ensures FinishTimer(s, i, now) == Finish(s, None)
  {
  }

  // ---------------------------------------------------------------------------
  // The hh / mm / ss inputs
  // ---------------------------------------------------------------------------

  /** `Math.floor(remain / 60000) % 60`: the minutes field of the remainder. */
  function MinutesField(remain: int): int
  {
    JsRem(remain / 60000, 60)
  }

  /** `Math.floor(remain / 1000) % 60`: the seconds field of the remainder. */
  function SecondsField(remain: int): int
  {
    JsRem(remain / 1000, 60)
  }

  /** The sub-hour fields of a non-negative remainder, read off its
      remainders: minutes and seconds together are the remainder below an
      hour, rounded down to the second. */
  lemma SubHourParts(remain: int)
    ensures remain >= 0 ==> MinutesField(remain) == remain % 3600000 / 60000
    ensures remain >= 0 ==> SecondsField(remain) == remain % 60000 / 1000
    ensures remain >= 0 ==>
              MinutesField(remain) * 60000 + SecondsField(remain) * 1000 == remain % 3600000 / 1000 * 1000
  {
    if remain >= 0 {
      var h, r1 := remain / 3600000, remain % 3600000;
      var m, r2 := r1 / 60000, r1 % 60000;
      var sec, f := r2 / 1000, r2 % 1000;
      assert remain == (h * 60 + m) * 60000 + r2;
      DivModUnique(remain, 60000, h * 60 + m, r2);
      DivModUnique(h * 60 + m, 60, h, m);
      assert remain == (h * 3600 + m * 60 + sec) * 1000 + f;
      DivModUnique(remain, 1000, h * 3600 + m * 60 + sec, f);
      DivModUnique(h * 3600 + m * 60 + sec, 60, h * 60 + m, sec);
      DivModUnique(r1, 1000, m * 60 + sec, f);
    }
  }

  /** The hh input: the typed hours with the current minutes and seconds.
      For a non-negative entry it keeps the part of the remainder below an
      hour, to the second. */
  function HoursInput(remain: int, hh: JsNumber): (r: nat)
    ensures remain >= 0 && OrZero(hh) >= 0 ==> r == OrZero(hh) * 3600000 + remain % 3600000 / 1000 * 1000
  {
    SubHourParts(remain);
    ParseToMs(hh, Finite(MinutesField(remain)), Finite(SecondsField(remain)))
  }

  /** The mm input: no hours, the typed minutes and the current seconds.
      For a non-negative entry it keeps the part of the remainder below a
      minute, to the second. */
  function MinutesInput(remain: int, mm: JsNumber): (r: nat)
    ensures remain >= 0 && OrZero(mm) >= 0 ==> r == OrZero(mm) * 60000 + remain % 60000 / 1000 * 1000
  {
    SubHourParts(remain);
    ParseToMs(Finite(0), mm, Finite(SecondsField(remain)))
  }

  /** The ss input: no hours, the current minutes and the typed seconds.
      For a non-negative entry it keeps the whole minutes of the remainder
      below an hour. */
  function SecondsInput(remain: int, ss: JsNumber): (r: nat)
    ensures remain >= 0 && OrZero(ss) >= 0 ==> r == remain % 3600000 / 60000 * 60000 + OrZero(ss) * 1000
  {
    SubHourParts(remain);
    ParseToMs(Finite(0), Finite(MinutesField(remain)), ss)
  }

  /** A time of `h` hours, `m` minutes and `s` seconds reads back its fields. */
  lemma ClockFieldsOf(h: nat, m: nat, s: nat)
    requires m < 60 && s < 60
    ensures var t := h * 3600000 + m * 60000 + s * 1000;
            t / 3600000 == h && (t / 60000) % 60 == m && (t / 1000) % 60 == s
  {
    var t := h * 3600000 + m * 60000 + s * 1000;
    DivModUnique(t, 3600000, h, m * 60000 + s * 1000);
    DivModUnique(t, 60000, h * 60 + m, s * 1000);
    DivModUnique(h * 60 + m, 60, h, m);
    DivModUnique(t, 1000, h * 3600 + m * 60 + s, 0);
    DivModUnique(h * 3600 + m * 60 + s, 60, h * 60 + m, s);
  }

  /** The fields of a non-negative remainder lie in 0..59. */
  lemma FieldsInRange(remain: nat)
    ensures 0 <= MinutesField(remain) < 60 && MinutesField(remain) == (remain / 60000) % 60
    ensures 0 <= SecondsField(remain) < 60 && SecondsField(remain) == (remain / 1000) % 60
  {
  }

  /** Typing `h` hours keeps the minutes and seconds on display. */
  lemma HoursInputKeepsMinutesSeconds(remain: nat, h: nat)
    ensures var r := HoursInput(remain, Finite(h));
            && r / 3600000 == h
            && (r / 60000) % 60 == (remain / 60000) % 60
            && (r / 1000) % 60 == (remain / 1000) % 60
  {
    FieldsInRange(remain);
    ClockFieldsOf(h, MinutesField(remain), SecondsField(remain));
  }

  /** Typing minutes `m` below 60 drops the hours and keeps the seconds. */
  lemma MinutesInputDropsHours(remain: nat, m: nat)
    requires m < 60
    ensures var r := MinutesInput(remain, Finite(m));
            && r / 3600000 == 0
            && (r / 60000) % 60 == m
            && (r / 1000) % 60 == (remain / 1000) % 60
  {
    FieldsInRange(remain);
    ClockFieldsOf(0, m, SecondsField(remain));
  }

  /** Typing seconds `s` below 60 drops the hours and keeps the minutes. */
  lemma SecondsInputDropsHours(remain: nat, s: nat)
    requires s < 60
    ensures var r := SecondsInput(remain, Finite(s));
            && r / 3600000 == 0
            && (r / 60000) % 60 == (remain / 60000) % 60
            && (r / 1000) % 60 == s
  {
    FieldsInRange(remain);
    ClockFieldsOf(0, MinutesField(remain), s);
  }

  /** An hh entry that is not a number (`Number` gives NaN) counts as zero
      hours. A cleared field gives `Number("") == 0`, a finite zero, which
      `HoursInputKeepsMinutesSeconds` covers with `h == 0`. */
  lemma HoursInputNotANumber(remain: nat)
    ensures HoursInput(remain, NonFinite) == ((remain / 60000) % 60) * 60000 + ((remain / 1000) % 60) * 1000
  {
    FieldsInRange(remain);
  }

  // ---------------------------------------------------------------------------
  // Stopwatch card
  // ---------------------------------------------------------------------------

  /** A running stopwatch's display advances at the rate of the clock; a
      paused one stands still. */
  lemma ElapsedRate(w: Stopwatch, t1: int, t2: int)
    ensures w.startedAt.Some? ==> ElapsedAt(w, t2) - ElapsedAt(w, t1) == t2 - t1
    ensures w.startedAt.None? ==> ElapsedAt(w, t2) == ElapsedAt(w, t1)
  {
  }
}

=== FILE: wrappers.dfy ===
/** Optional values. The engine uses `None` where the JavaScript code stores
    `null` (a stopped entity's anchor) or leaves a key out (`undefined`). */
module Wrappers {

  datatype Option<+T> = None | Some(value: T) {

    /** The wrapped value, or `default` when there is none (JavaScript's `??`). */
    function GetOr(default: T): T {
      match this
      case Some(v) => v
      case None => default
    }
  }
}
